=== FILE: README.md ===
# Mini-Step tool core, in Dafny

A model of the core of the PROVOWARE "Mini Step" browser tool and its Node
scripts:

- the validation helpers that every other part uses (`ensureString`,
  `ensureOneOf`, `ensureBoolean`, `runSafely`). Each returns a
  `{ success, message, payload? }` result.
- the structured logger. It stores entries and echoes them to the console,
  except debug entries while debug is off.
- the self-heal routine and the theme manager of the page.
- the scripts the CI runs:
  - the contrast audit of the design manifest;
  - the whitespace linter;
  - the accessibility check of `src/index.html`;
  - the CI pipeline itself.
- the development server's request handler.

One Dafny module models each source file. Two shared modules hold the rest:

- `Text` holds the string helpers: ECMAScript white space, `trim`, `split`,
  `join`, `includes`, ASCII lower-case and decimal rendering.
- `Js` holds the dynamically typed values the code handles. It also has
  JavaScript truthiness, nullish coalescing and property access.

The logger is an immutable value. Every operation takes the logger and returns
the next one, and "console output" is a list of echo records kept beside the
entries. A script is a function from its inputs to how it ended: its logger, its
result, and `process.exitCode`, where `None` means the code was never set.

Effects become inputs:

- Anything a JavaScript call can throw is a `Completion`: `Returned(value)` or
  `Threw(message)`.
- The time stamp is the parameter `now`.
- Each file read and the directory walk is given as its completion.
- Each step of the CI is given as a completion: the exit code its child closes
  with, or the error its spawn throws.
- The server's file-system probe is a predicate `readable`, and its reads are a
  function `read`.

## Model

| member | source | states |
|---|---|---|
| Validator.EnsureString | validator.js:12-17 | succeeds exactly for strings, with the string as payload and "<context> ok"; otherwise fails with "<context> muss ein Text (string) sein." and no payload |
| Validator.Propagate | validator.js:27-30 | a failure handed on keeps its message, stays a failure and carries no payload |
| Validator.EnsureOneOf | validator.js:26-41 | a non-string fails exactly as ensureString does; a non-list `allowed` fails with the fixed message; otherwise succeeds exactly when the value is in the list, and the rejection message names the list joined with ", " |
| Validator.RejectionNamesEveryAllowed | validator.js:37-40 | when a string is rejected, every allowed string occurs in the rejection message |
| Validator.EnsureBoolean | validator.js:49-54 | succeeds exactly for booleans, with the boolean as payload; otherwise fails with the boolean message |
| Validator.RunSafely | validator.js:63-70 | succeeds exactly when the action returns, with "<context> erfolgreich" and the returned value; a throw gives "<context> fehlgeschlagen: <error message>" |
| Validator.PayloadRevalidates | validator.js:12-54 | feeding the payload of a successful check back into the same check succeeds again with the same payload |
| Logger.CreateLogger | logger.js:7-15 | `null` options throw; otherwise the logger starts empty, debug is the truthiness of `options.debug`, and the namespace is `options.namespace` when it is a string, else 'PROVOWARE' |
| Logger.Log | logger.js:22-37 | a non-string message throws the ensureString error and changes nothing; otherwise exactly one entry with level, message, time stamp and meta is appended, and it is echoed unless it is a debug entry while debug is off |
| Logger.LogInfo | logger.js:47-49 | a logged info entry adds one entry of level info and one echo on console.info |
| Logger.LogWarn | logger.js:50-52 | a logged warning adds one entry of level warn and one echo on console.warn |
| Logger.LogError | logger.js:53-55 | a logged error adds one entry of level error and one echo on console.error |
| Logger.LogDebug | logger.js:56-58 | a logged debug entry is always stored, and echoed on console.log exactly when debug is on |
| Logger.EnableDebug | logger.js:40-46 | returns the ensureBoolean result; the debug flag takes the value only when it is a boolean; nothing else in the logger changes |
| Logger.ExportLogs | logger.js:59-61 | succeeds with a list equal, element by element, to the stored entries |
| Logger.Record | logger.js:22-37 | recording a call appends exactly its entry and keeps debug and namespace |
| Logger.RecordIsLog | logger.js:22-37 | recording a call agrees with `log` for that call's level, message and meta |
| Logger.RecordAllAppend | logger.js:22-37 | logging two call lists in one go equals logging the first and then the second |
| Logger.EntriesAfterCalls | logger.js:22-37 | after a list of calls the entries are the old entries followed by one entry per call, in order |
| Logger.EchoesAfterCalls | logger.js:31-35 | after a list of calls the echoes are the old echoes followed by the echoes of exactly the calls that are echoed |
| Logger.ExportAfterCalls | logger.js:59-61 | after a list of calls the exported log is the old log followed by the calls' entries |
| Logger.EchoCount | logger.js:31-35 | the number of echoes is the number of calls, less the debug calls while debug is off |
| Contrast.EnsureHexColor | contrast.js:12-22 | a non-string fails as ensureString does; a string succeeds exactly when its trimmed text is '#' and six hex digits, with the trimmed lower-case text as payload |
| Contrast.CanonicalIsFixed | contrast.js:17-21 | a lower-case `#rrggbb` colour is unchanged by trim and lower-casing and passes the pattern |
| Contrast.HexColorIdempotent | contrast.js:17-21 | validating a validated colour again succeeds with the same colour |
| Contrast.HexCharValue | contrast.js:33-37 | the digit written for a value below 16 is read back as that value |
| Contrast.HexValueChar | contrast.js:33-37 | reading a lower-case hex digit and writing its value gives the digit back |
| Contrast.Channels | contrast.js:33-37 | the three channels read from the digit pairs of a `#rrggbb` colour each lie in 0..255 |
| Contrast.ChannelsOfColorText | contrast.js:33-37 | the channels parsed from the `#rrggbb` text of three bytes are those bytes |
| Contrast.ColorTextOfChannels | contrast.js:33-37 | writing the parsed channels of a canonical colour gives the colour back |
| Contrast.Ratio | contrast.js:53-55 | the ratio of two non-negative luminances is at least 1 |
| Contrast.RatioSymmetric | contrast.js:53-55 | the ratio does not depend on the order of the two luminances |
| Contrast.GetContrastRatio | contrast.js:42-57 | a bad foreground fails with its own check's result, before the background is considered; a bad background fails with its check's result; both valid gives "Kontrast berechnet" and a ratio of at least 1 |
| Contrast.ContrastSymmetric | contrast.js:42-57 | for two valid colours, swapping foreground and background gives the same result |
| Contrast.MapThemeKey | contrast.js:70-75 | 'high-contrast' maps to 'highContrast', and every other name maps to itself |
| Contrast.ManifestMinimum | contrast.js:106 | the default minimum is the manifest's `accessibility.minimumContrastRatio` unless that is nullish, then 4.5 |
| Contrast.PairMinimum | contrast.js:131 | a pair's own numeric `minimum` wins; otherwise the manifest default applies |
| Contrast.JudgePair | contrast.js:120-160 | a pair is judged with an info or an error entry, and a failure is recorded exactly when the entry is an error; a pair without string token names fails as 'Token unvollständig' against the manifest minimum, any other failure names the theme, the 'fg auf bg' pair and the pair's own minimum |
| Contrast.JudgePairPasses | contrast.js:121-159 | a pair records no failure exactly when both token names are strings, both tokens resolve to truthy values, both are valid colours, and the ratio rounded to two places reaches the pair's minimum |
| Contrast.AuditPairPasses | contrast.js:121-159 | auditing one pair keeps the failure list exactly when the pair passes |
| Contrast.AuditPair | contrast.js:120-160 | auditing one pair appends exactly one entry, keeping the earlier entries and failures, and adds a failure exactly when that entry is an error |
| Contrast.AuditPairs | contrast.js:119-160 | auditing a theme's pairs logs one entry per pair and adds at most one failure per pair |
| Contrast.FoldStepsGrows | contrast.js:120-160 | when each step logs one entry and adds at most one failure, the pairs loop logs one entry per pair and adds at most one failure per pair |
| Contrast.FoldStepsClean | contrast.js:120-160 | when a step keeps the failures exactly for an item that satisfies a condition, the loop keeps them exactly when every item does |
| Contrast.AuditPairsClean | contrast.js:119-160 | auditing a theme's pairs adds no failure exactly when every pair passes |
| Contrast.AuditThemeClean | contrast.js:103-160 | a theme configuration neither throws nor adds a failure exactly when it is not nullish, its theme name is a string with a truthy token set, and all its pairs pass |
| Contrast.AuditTheme | contrast.js:102-161 | one theme adds at most one failure plus one per pair; it throws only for a nullish configuration, and then changes nothing |
| Contrast.AuditThemes | contrast.js:102-161 | the loop keeps earlier failures; without a throw its failures are bounded by one per theme plus one per pair |
| Contrast.AuditThemesFold | contrast.js:102-161 | the loop over the theme configurations is the fold of the per-theme audit that stops at the first throw |
| Contrast.FoldThrowingClean | contrast.js:102-161 | when a step never drops a failure and neither throws nor adds one exactly for an item that satisfies a condition, the stopping fold does neither exactly when every item satisfies it |
| Contrast.AuditThemesClean | contrast.js:102-161 | the loop over the theme configurations neither throws nor adds a failure exactly when every configuration passes |
| Contrast.LoadManifest | contrast.js:59-68 | succeeds exactly when the read and parse returned, with the parsed value; a failure prefixes the error with "Manifest konnte nicht geladen werden: " |
| Contrast.ManifestGuards | contrast.js:78-98 | the manifest checks run in order: a manifest that did not load, then one without an object of colour tokens, then one without a contrast list; the first that fails logs its own single error with the source's message, sets exit code 1 and records no failure |
| Contrast.AuditConfigs | contrast.js:85-98 | once the contrast configuration is a list, the exit code is left alone exactly when nothing threw and no failure was collected, and otherwise is 1; failures stay within the budget; at least one entry is logged |
| Contrast.AuditVerdict | contrast.js:163-175 | once the manifest checks pass, the last entry is the unhandled-error entry with the thrown message when an error escaped, 'Kontrastprüfung nicht bestanden' with the failure list when failures were collected, and 'Kontrastprüfung erfolgreich abgeschlossen' otherwise |
| Contrast.Audit | contrast.js:77-175 | the exit code is left alone exactly when the manifest loaded with colour tokens and a contrast list, nothing threw, and no failure was collected; otherwise it is 1 |
| Contrast.AuditPasses | contrast.js:77-171 | the exit code is left alone exactly when the manifest is usable and every theme configuration in it passes: a string theme name with a truthy token set, and every colour pair reaching its minimum |
| SelfHeal.ScopeListMembers | selfHeal.js:6 | a value is in the scope list exactly when it is one of the strings 'global', 'module', 'database' |
| SelfHeal.RunSelfHeal | selfHeal.js:12-39 | succeeds exactly for a valid scope with falsy or string notes; an invalid scope returns the scope check's failure; truthy non-string notes return the string check's failure; success carries the scope, the three steps and the fixed message; one entry is logged, info on success and warn otherwise |
| SelfHeal.ScopeBeforeNotes | selfHeal.js:13-17 | with an invalid scope the notes make no difference to the result or the log |
| SelfHeal.RepositoryTest | selfHeal.js:12-39 | scope 'global' with notes succeeds with three steps; scope 'invalid' fails |
| ThemeManager.ApplyTheme | themeManager.js:12-21 | succeeds exactly for 'dark', 'light' and 'high-contrast' and then sets `data-theme` to it; otherwise returns the ensureOneOf failure and leaves the attribute alone; logs one entry |
| ThemeManager.ApplyThemeIdempotent | themeManager.js:12-21 | applying the same theme a second time leaves the attribute as the first call set it and reports the same outcome |
| ThemeManager.GetAllowedThemes | themeManager.js:42-44 | succeeds with 'Themes bereit' and the list 'dark', 'light', 'high-contrast' in that order, which are exactly the themes applyTheme accepts |
| ThemeManager.ListedThemesApply | themeManager.js:6 | every listed theme is accepted by applyTheme |
| ThemeManager.BindThemeSelect | themeManager.js:27-40 | succeeds exactly when the element's tag name is a string that lower-cases to 'select', and then sets the select to the current theme or 'dark'; otherwise fails with the fixed message and sets nothing |
| Lint.Targets | lint.js:10-27 | the kept files are exactly the walked files whose name ends in .js, .html, .css or .json |
| Lint.IsLintTarget | lint.js:18 | a name matches the extension pattern exactly when its `path.extname` extension is .js, .html, .css or .json, or the name is one of those four itself |
| Lint.TargetsAppend | lint.js:10-27 | the filter keeps walk order: the targets of two lists in a row are the first list's targets followed by the second's |
| Lint.TargetsOne | lint.js:18-19 | a single file is kept exactly when its name is a lint target |
| Lint.TrailingSpaceIffTrimEndChanges | lint.js:36 | a line matches `/\s+$/` exactly when trimming its end changes it |
| Lint.LineFindingsIff | lint.js:35-44 | a line gets a trailing-white-space finding exactly when it ends in white space and a tab finding exactly when it holds a tab, in that order, each with the line's file and number |
| Lint.LineFindings | lint.js:35-44 | one line gives at most two findings, each naming the file and the line's number |
| Lint.NumberedAt | lint.js:33-44 | when each line's findings carry its 1-based number, a finding is among those of a run of lines exactly when its line is in the run and that line reports it |
| Lint.LinesFindingAt | lint.js:33-44 | a finding of a file's lines belongs to the line its number names, and that line reports it |
| Lint.TrailingFindingIff | lint.js:34-44 | in a list of lines numbered from 1, a trailing-white-space finding for line n and file f is reported exactly when f is the file, n is a line and that line ends in white space |
| Lint.TabFindingIff | lint.js:34-44 | in a list of lines numbered from 1, a tab finding for line n and file f is reported exactly when f is the file, n is a line and that line holds a tab |
| Lint.FileFindingIff | lint.js:33-44 | for a file's text, line n (1-based, split on newline) gets each finding exactly when its condition holds |
| Lint.FileFindings | lint.js:33-44 | every finding of a file's text names that file and a line number between 1 and the number of its newline-separated lines |
| Lint.Scan | lint.js:31-45 | the loop finishes exactly when every file was read, and then reports all files' findings in order, with one warning logged per finding |
| Lint.Run | lint.js:29-57 | exit code 1 exactly when the walk or a read failed or some finding exists, else untouched; one warning per finding, then one closing entry; a clean run logs 'Lint erfolgreich' with the number of files |
| Accessibility.Inspect | accessibility.js:8-12 | each flag is set exactly when its marker text occurs somewhere in the page |
| Accessibility.Run | accessibility.js:7-30 | exit code untouched exactly when the page was read and holds all four markers, else 1; exactly one entry, the success entry, the failure entry with the four flags, or the script error |
| Accessibility.PassingPageStaysPassing | accessibility.js:9-12 | adding text before or after a passing page keeps it passing |
| Accessibility.MarkersSuffice | accessibility.js:9-14 | a page assembled from parts that include all four markers passes |
| Ci.RunCommand | ci.js:7-20 | the start entry is logged first; a spawned step resolves to true exactly when it closed with code 0, after one closing entry, error on failure and info on success; a spawn that throws rejects with its error and logs nothing more |
| Ci.FirstFailure | ci.js:30-37 | the index of the first step that did not close with 0, whether it closed otherwise or its spawn threw: all earlier steps succeeded |
| Ci.FirstFailureAt | ci.js:30-37 | a failing step preceded only by successes is the first failure |
| Ci.RunSteps | ci.js:30-37 | the steps run in order up to and including the first failure, or all five when none fails; the loop ends with false after a bad close code, with the error after a spawn that threw; the log gains each started step's calls |
| Ci.Verdict | ci.js:30-45 | the closing entry is 'CI Pipeline erfolgreich' exactly when every step succeeds |
| Ci.VerdictAtFirstFailure | ci.js:30-45 | otherwise the first failing step decides it: 'CI Skript Fehler' with the error's message when its spawn threw, 'CI Pipeline abgebrochen' when its child closed with another code |
| Ci.Run | ci.js:30-45 | exit code untouched exactly when all five steps succeed, else 1, through the abort branch or the `.catch` handler; steps run up to and including the first failure; the log is their calls, then the closing verdict |
| Ci.TraceLength | ci.js:22-28 | the trace of n spawned steps has 2n calls: step k's start at 2k and its close at 2k+1, for the k-th configured command |
| PosixPath.BaseExtension | start.js:33 | the extension is empty or a dot followed by no further dot, and is a suffix of the base name |
| PosixPath.Extname | start.js:33 | the extension of a path is empty or a dot-led suffix without further dots and without '/', ending the path once its trailing slashes are dropped |
| PosixPath.EndsWithExtension | start.js:33 | for an extension `.x` with a non-empty dot-free `x`, a name ends in `.x` exactly when its extension is `.x` or the name is `.x` itself |
| PosixPath.BaseExtensionEdges | start.js:33 | '..' and a name without a dot have no extension, and '..e' has '.e' |
| PosixPath.ExtnameOfFile | start.js:33 | a path ending in "name.ext", with a name other than '' and '.', and no dot in ext, has extension ".ext" |
| PosixPath.ExtnameOfDotFile | start.js:33 | a path whose base name starts with its only dot has no extension |
| PosixPath.ExtensionOfName | start.js:33 | the extension of the base name "name.ext" is ".ext" when ext holds no dot and name is neither '' nor '.' |
| PosixPath.DotNameExtension | start.js:33 | a base name whose only dot is its first character has no extension |
| PosixPath.ResolveAll | start.js:20 | normalizing segments onto a stack free of empty and '.' segments (and of '/') keeps it so |
| PosixPath.Normalize | start.js:20 | normalizing a relative path gives a non-empty relative path that ends in '/' exactly when the input does |
| PosixPath.JoinCleanEnds | start.js:20 | normalized segments join to a text that neither starts nor ends with '/' |
| PosixPath.JoinPath | start.js:20 | joining to a relative root gives a non-empty relative path that ends in '/' exactly when the last non-empty argument does |
| PosixPath.CancelledTrailingSlash | start.js:20 | when every segment cancels, the trailing '/' survives: 'src' joined with '../' is './' |
| PosixPath.ResolveAllKeepsPrefix | start.js:20 | segments without '..' never remove what is already on the stack |
| PosixPath.JoinWithoutDotDotStaysUnder | start.js:20 | joining 'src' with a pathname without '..' segments stays at or under 'src' |
| PosixPath.SplitUnderRoot | start.js:20 | the segments of 'src/pathname' are 'src' followed by those of the pathname |
| PosixPath.KeptUnderRoot | start.js:20 | with no '..' after it, the leading 'src' segment survives normalisation |
| PosixPath.JoinUnderRoot | start.js:20 | segments that start with 'src' join to 'src' or to a path below 'src/' |
| Start.JoinPlain | start.js:20 | a plain name joined to a plain root is the root, '/', and the name |
| Start.JoinDot | start.js:16-20 | joining '.' with a plain name gives the name itself |
| Start.Candidates | start.js:16-20 | two candidates, in root order, both relative; for a plain name they are 'src/name' and the name itself |
| Start.DotDotLeavesRoot | start.js:20 | '../name' joined to a plain root is 'name', outside the root |
| Start.RequestPath | start.js:32 | the URL '/' and a missing URL become '/index.html'; any other URL is used as it is |
| Start.MimeType | start.js:33 | a known extension gets its entry of the type table, and only an unknown one gets the 'text/plain; charset=utf-8' fallback |
| Start.StripLeadingSlashes | start.js:34 | removes exactly the leading '/' characters and nothing else |
| Start.ResolveFile | start.js:18-29 | no file exactly when no candidate is readable; a found file is a readable candidate; the 'src' candidate wins when readable |
| Start.ResolvesSourceFirst | start.js:16-29 | for a plain name, 'src/name' is served when readable, else 'name' when readable, else nothing |
| Start.Serve | start.js:35-50 | 404 exactly without a file, 200 exactly when the read succeeds, 500 exactly when it fails, each with its body, content type and one log entry |
| Start.Handle | start.js:31-51 | 404 exactly when no candidate is readable, 200 exactly when the resolved file is read, 500 exactly when reading it fails; a 200 carries the type of the URL path's extension and the file content; one entry is logged, the debug 'Datei ausgeliefert', the error 'Datei fehlt' or the error 'Lesefehler' with the message |
| Start.RootIsIndex | start.js:32 | requests for '/' and without a URL are answered as '/index.html' |
| Text.TrimIdempotent | contrast.js:17 | trimming a trimmed text changes nothing |
| Text.Trim | contrast.js:17 | the result is a slice of the text that neither starts nor ends with ECMAScript white space |
| Text.JoinSplit | lint.js:34 | joining the lines of a text with newline gives the text back |
| Text.SplitJoin | lint.js:34 | splitting newline-joined newline-free lines gives those lines back |
| Text.Split | lint.js:34 | a split has at least one piece, and no piece holds the separator |
| Text.ContainsIff | accessibility.js:9-12 | `includes` holds exactly when the pattern occurs at some position |
| Text.Contains | accessibility.js:9-12 | the empty pattern is always found, and a found pattern is no longer than the text |
| Text.LowerAscii | themeManager.js:29 | lower-casing keeps the length and lowers each ASCII letter in place, leaving every other character |

## Left out

- I/O is not performed. The file reads and the directory walk are given as
  completions, and the same goes for the CI steps (as close codes or spawn errors) and
  the server's `access` probe and `readFile`.
- Concurrency is not modelled. Each script run and each server request is
  modelled on its own, with its awaited reads given as completions. Concurrent
  requests to the server can interleave in the one module logger; that only
  reorders their single log entries, and it is not modelled.
- The order in which `readdir` lists entries, and the recursion of the walk,
  are not modelled. The walk arrives as a list of files, and a directory that
  cannot be read is a thrown walk.
- The time stamp from `new Date().toISOString()` is the parameter `now`.
  Entries logged in one script run share it.
- Console output is an echo record: channel, line text and meta. No terminal
  is written.
- Floating point arithmetic is not modelled:
  - the relative luminance and `srgbToLinear` (contrast.js:24-40);
  - `Number(x.toFixed(2))`;
  - the comparison `rounded >= minimum`.
  These are given as `FloatOps` functions. The ratio formula itself is modelled
  on exact reals.
- NaN and the infinities are not modelled. A JavaScript number is a `real`.
- Property access is limited to own fields of an object. Array index access
  and the prototype chain are not modelled.
- Validator.EnsureOneOf: the rejection message renders a non-integral number in
  the allowed list by its integer part, not by JavaScript's shortest decimal
  form.
- ThemeManager.BindThemeSelect: `toLowerCase` is modelled for ASCII letters
  only.
- The DOM is reduced to the `data-theme` attribute. Event listeners, and the
  `change` handler that calls applyTheme, are not modelled.
- SelfHeal.RunSelfHeal: the payload is a record with `scope` and `notes`, as
  the source's documentation types it. A `null` or `undefined` payload, which
  throws at `payload.scope`, and a payload that is not an object are not
  modelled.
- `bindSelfHealForm` (selfHeal.js:45-63) is not modelled. It only wires a form
  to runSelfHeal.
- `exportLogs` returns a shallow copy of the entry list, and `log` returns the
  stored entry itself as its payload. Callers that mutate those objects change
  the stored log. The model's values are immutable, so this aliasing is not
  modelled.
- A spawn failure that Node reports through the child's asynchronous 'error'
  event (ENOENT and its kin) is not modelled. The source installs no 'error'
  listener, so such a failure is not handled by `run()` at all. A spawn error
  thrown synchronously is modelled: it rejects the step's promise and reaches
  the `.catch` handler.
- The server's `listen` call and its start-up log entry (start.js:53-56) are not
  modelled. Neither are the HTTP transport or the response headers beyond
  the content type.
- PosixPath.Normalize: only relative paths are modelled. The server only joins
  relative roots.
- format.js, test.js, app.js, suggestions.js and debugToggle.js are not part of
  this model.

## Notes

- The accessibility check looks for `class="skip-link"`, the marker in the
  code.
- Requests may leave the served directories. A URL path segment '..' is
  resolved by `join`, so '/../package.json' is looked up as 'package.json'
  next to 'src' (`Start.DotDotLeavesRoot`). Any readable file in the project
  directory or above it can therefore be served. The server has no guard
  against this, and the model keeps that behaviour.

=== FILE: accessibility.dfy ===
/** The basic accessibility check: it reads the start page and looks for four
    markers — the skip link, the main landmark, the theme select and the footer
    landmark. Reading the page is an input. */
module Accessibility {
  import opened Text
  import opened Js
  import opened Logger

  const SkipLinkMarker: string := "class=\"skip-link\""
  const MainMarker: string := "role=\"main\""
  const ThemeSelectMarker: string := "id=\"theme-select\""
  const FooterMarker: string := "role=\"contentinfo\""

  /** Which of the four markers the page holds. */
  datatype Flags = Flags(hasSkipLink: bool, hasAriaMain: bool, hasThemeSelect: bool, hasFooter: bool)
  {
    predicate AllPresent() {
      hasSkipLink && hasAriaMain && hasThemeSelect && hasFooter
    }
  }

  /** The four `html.includes(...)` tests: each flag says that its marker occurs
      somewhere in the page. */
  function Inspect(html: string): (f: Flags)
    ensures f.hasSkipLink <==> exists i :: OccursAt(html, SkipLinkMarker, i)
    ensures f.hasAriaMain <==> exists i :: OccursAt(html, MainMarker, i)
    ensures f.hasThemeSelect <==> exists i :: OccursAt(html, ThemeSelectMarker, i)
    ensures f.hasFooter <==> exists i :: OccursAt(html, FooterMarker, i)
  {
    ContainsIff(html, SkipLinkMarker);
    ContainsIff(html, MainMarker);
    ContainsIff(html, ThemeSelectMarker);
    ContainsIff(html, FooterMarker);
    Flags(Contains(html, SkipLinkMarker), Contains(html, MainMarker),
          Contains(html, ThemeSelectMarker), Contains(html, FooterMarker))
  }

  function FlagsMeta(f: Flags): JsValue {
    JsObject(map["hasSkipLink" := JsBool(f.hasSkipLink), "hasAriaMain" := JsBool(f.hasAriaMain),
                 "hasThemeSelect" := JsBool(f.hasThemeSelect), "hasFooter" := JsBool(f.hasFooter)])
  }

  /** `run()` with its `.catch` handler, given how reading 'src/index.html' went.
      It logs exactly one entry and returns the next logger and `process.exitCode`
      (`None` when left untouched): the check passes exactly when the page was read
      and holds all four markers; a failed check records which markers were found. */
  function Run(l: Logger, page: Completion<string>, now: string): (r: (Logger, Option<int>))
    ensures r.1.None? || r.1 == Some(1)
    ensures r.1.None? <==> page.Returned? && Inspect(page.value).AllPresent()
    ensures |r.0.entries| == |l.entries| + 1 && r.0.entries[..|l.entries|] == l.entries
    ensures r.1.None? ==> r.0.entries[|l.entries|] == Entry(Info, "Barrierefreiheit Grundprüfung bestanden", now, JsObject(map[]))
    ensures page.Returned? && r.1.Some? ==>
              r.0.entries[|l.entries|] == Entry(Error, "Barrierefreiheit fehlgeschlagen", now, FlagsMeta(Inspect(page.value)))
    ensures page.Threw? ==>
              r.0.entries[|l.entries|] == Entry(Error, "A11y Script Fehler", now, JsObject(map["message" := JsString(page.error)]))
  {
    match page
    case Threw(e) =>
      (Record(l, Call(Error, "A11y Script Fehler", JsObject(map["message" := JsString(e)])), now), Some(1))
    case Returned(html) =>
      var flags := Inspect(html);
      if flags.AllPresent() then
        (Record(l, Call(Info, "Barrierefreiheit Grundprüfung bestanden", JsObject(map[])), now), None)
      else
        (Record(l, Call(Error, "Barrierefreiheit fehlgeschlagen", FlagsMeta(flags)), now), Some(1))
  }

  /** The check is monotone: text added before or after a page that passes leaves
      it passing. */
  lemma PassingPageStaysPassing(html: string, before: string, after: string)
    requires Inspect(html).AllPresent()
    ensures Inspect(before + html + after).AllPresent()
  {
    ContainsExtended(html, SkipLinkMarker, before, after);
    ContainsExtended(html, MainMarker, before, after);
    ContainsExtended(html, ThemeSelectMarker, before, after);
    ContainsExtended(html, FooterMarker, before, after);
  }

  /** A page made of the four markers in any arrangement separated by other text passes. */
  lemma MarkersSuffice(parts: seq<string>, sep: string)
    requires SkipLinkMarker in parts && MainMarker in parts && ThemeSelectMarker in parts && FooterMarker in parts
    ensures Inspect(Join(parts, sep)).AllPresent()
  {
    var i :| 0 <= i < |parts| && parts[i] == SkipLinkMarker;
    JoinContainsPiece(parts, sep, i);
    var j :| 0 <= j < |parts| && parts[j] == MainMarker;
    JoinContainsPiece(parts, sep, j);
    var k :| 0 <= k < |parts| && parts[k] == ThemeSelectMarker;
    JoinContainsPiece(parts, sep, k);
    var m :| 0 <= m < |parts| && parts[m] == FooterMarker;
    JoinContainsPiece(parts, sep, m);
  }
}

=== FILE: ci.dfy ===
/** The CI pipeline: five node scripts run one after another, and the first one
    that does not exit with code 0 stops the pipeline. Spawning a process is not
    modelled; how each step ends is an input: the code its child closes with
    (`None` for the `null` a signal-killed child reports), or the error `spawn`
    throws synchronously, which rejects the step's promise. */
module Ci {
  import opened Js
  import opened Logger

  datatype Step = Step(command: string, args: seq<string>)

  const Steps: seq<Step> := [
    Step("node", ["scripts/format.js"]),
    Step("node", ["scripts/lint.js"]),
    Step("node", ["scripts/test.js"]),
    Step("node", ["scripts/contrast.js"]),
    Step("node", ["scripts/accessibility.js"])
  ]

  function ArgsValue(args: seq<string>): (v: JsValue)
    ensures v.JsArray? && |v.items| == |args|
    ensures forall i :: 0 <= i < |args| ==> v.items[i] == JsString(args[i])
  {
    JsArray(seq(|args|, i requires 0 <= i < |args| => JsString(args[i])))
  }

  /** The exit code as the `close` event hands it over: a number, or `null`. */
  function CodeValue(code: Option<int>): JsValue {
    match code
    case Some(c) => Num(c)
    case None => JsNull
  }

  /** A step succeeds when its child was spawned and closed with code 0. */
  predicate Succeeded(end: Completion<Option<int>>) {
    end == Returned(Some(0))
  }

  function StartCall(step: Step): Call {
    Call(Info, "Starte Schritt", JsObject(map["command" := JsString(step.command), "args" := ArgsValue(step.args)]))
  }

  function CloseCall(step: Step, code: Option<int>): Call {
    if code != Some(0) then Call(Error, "Schritt fehlgeschlagen", JsObject(map["command" := JsString(step.command), "code" := CodeValue(code)]))
    else Call(Info, "Schritt abgeschlossen", JsObject(map["command" := JsString(step.command)]))
  }

  /** The log calls of one step: its start, then its close when the child was spawned. */
  function StepCalls(step: Step, end: Completion<Option<int>>): seq<Call> {
    match end
    case Returned(code) => [StartCall(step), CloseCall(step, code)]
    case Threw(_) => [StartCall(step)]
  }

  /** `runCommand(command, args)`: it logs the start of the step, then either the
      child closes with a code and the promise resolves to whether the code was 0,
      after the close entry, or `spawn` throws and the promise rejects with that
      error. */
  function RunCommand(l: Logger, step: Step, end: Completion<Option<int>>, now: string): (r: (Logger, Completion<bool>))
    ensures r.1 == Returned(true) <==> Succeeded(end)
    ensures r.1 == Returned(false) <==> end.Returned? && end.value != Some(0)
    ensures end.Threw? ==> r.1 == Threw(end.error)
    ensures r.0.entries == l.entries + EntriesOf(StepCalls(step, end), now)
    ensures r.0.entries[|l.entries|] == EntryOf(StartCall(step), now)
    ensures end.Returned? ==> r.0.entries[|l.entries| + 1].level == (if r.1.value then Info else Error)
    ensures r.0.debug == l.debug && r.0.namespace == l.namespace
  {
    var started := Record(l, StartCall(step), now);
    match end
    case Returned(code) => (Record(started, CloseCall(step, code), now), Returned(code == Some(0)))
    case Threw(e) => (started, Threw(e))
  }

  /** The index of the first step that does not succeed, or the number of steps
      when every one does. */
  function FirstFailure(ends: seq<Completion<Option<int>>>): (n: nat)
    ensures n <= |ends|
    ensures forall k :: 0 <= k < n ==> Succeeded(ends[k])
    ensures n < |ends| ==> !Succeeded(ends[n])
    decreases |ends|
  {
    if |ends| == 0 then 0
    else if !Succeeded(ends[0]) then 0
    else 1 + FirstFailure(ends[1..])
  }

  /** The log calls of the first `n` steps, in order. */
  function Trace(ends: seq<Completion<Option<int>>>, n: nat): seq<Call>
    requires n <= |ends| && n <= |Steps|
  {
    if n == 0 then []
    else Trace(ends, n - 1) + StepCalls(Steps[n - 1], ends[n - 1])
  }

  const SuccessCall: Call := Call(Info, "CI Pipeline erfolgreich", JsObject(map[]))
  const AbortCall: Call := Call(Error, "CI Pipeline abgebrochen", JsObject(map[]))

  /** The entry of the `.catch` handler of `run()`. */
  function CatchCall(message: string): Call {
    Call(Error, "CI Skript Fehler", JsObject(map["message" := JsString(message)]))
  }

  /** The entry that closes a run: success when every step succeeds; otherwise, for
      the first step that does not, the abort entry when its child closed, or the
      catch handler's entry with the error when spawning it threw. */
  function Verdict(ends: seq<Completion<Option<int>>>): (c: Call)
    ensures c == SuccessCall <==> forall k :: 0 <= k < |ends| ==> Succeeded(ends[k])
  {
    var n := FirstFailure(ends);
    if n == |ends| then SuccessCall
    else match ends[n]
      case Threw(e) => CatchCall(e)
      case Returned(_) => AbortCall
  }

  /** The first failure is at `i` when every step before `i` succeeds and step `i`
      does not. */
  lemma {:induction false} FirstFailureAt(ends: seq<Completion<Option<int>>>, i: nat)
    requires i < |ends| && !Succeeded(ends[i])
    requires forall k :: 0 <= k < i ==> Succeeded(ends[k])
    ensures FirstFailure(ends) == i
    decreases i
  {
    if i > 0 {
      FirstFailureAt(ends[1..], i - 1);
    }
  }

  /** The run's closing entry is decided by the first step that fails: the catch
      handler's entry with its error when spawning it threw, the abort entry when
      its child closed with another code than 0. */
  lemma VerdictAtFirstFailure(ends: seq<Completion<Option<int>>>, i: nat)
    requires i < |ends| && !Succeeded(ends[i])
    requires forall k :: 0 <= k < i ==> Succeeded(ends[k])
    ensures ends[i].Threw? ==> Verdict(ends) == CatchCall(ends[i].error)
    ensures ends[i].Returned? ==> Verdict(ends) == AbortCall
  {
    FirstFailureAt(ends, i);
  }

  lemma EntriesOfAppend(a: seq<Call>, b: seq<Call>, now: string)
    ensures EntriesOf(a + b, now) == EntriesOf(a, now) + EntriesOf(b, now)
  {
  }

  /** The loop of `run()`: the steps run in order up to and including the first
      one that fails, and the log gains each started step's calls. The loop ends
      normally, with `false` when a child closed with a code other than 0, or by
      the rejection of a step whose spawn threw. */
  method RunSteps(l: Logger, ends: seq<Completion<Option<int>>>, now: string)
    returns (logger: Logger, started: nat, result: Completion<bool>)
    requires |ends| == |Steps|
    ensures result == Returned(true) <==> forall k :: 0 <= k < |ends| ==> Succeeded(ends[k])
    ensures started == (if result == Returned(true) then |Steps| else FirstFailure(ends) + 1)
    ensures started <= |Steps|
    ensures result != Returned(true) ==> result == (if ends[started - 1].Threw? then Threw(ends[started - 1].error) else Returned(false))
    ensures logger.entries == l.entries + EntriesOf(Trace(ends, started), now)
  {
    logger := l;
    var i := 0;
    while i < |Steps|
      invariant 0 <= i <= |Steps|
      invariant i <= FirstFailure(ends)
      invariant logger.entries == l.entries + EntriesOf(Trace(ends, i), now)
    {
      var step := RunCommand(logger, Steps[i], ends[i], now);
      TraceStep(l, logger.entries, step.0.entries, ends, i, now);
      logger := step.0;
      if step.1 != Returned(true) {
        return logger, i + 1, step.1;
      }
      i := i + 1;
    }
    return logger, |Steps|, Returned(true);
  }

  /** `run()` together with its `.catch` handler, given how each step ends. The
      steps run in order up to and including the first one that fails;
      `process.exitCode` becomes 1 exactly when some step failed, whether its child
      closed with another code or its spawn threw, and is left alone otherwise. The
      log holds each started step's calls, then the closing verdict. */
  method Run(l: Logger, ends: seq<Completion<Option<int>>>, now: string) returns (logger: Logger, exitCode: Option<int>, started: nat)
    requires |ends| == |Steps|
    ensures exitCode.None? || exitCode == Some(1)
    ensures exitCode.None? <==> forall k :: 0 <= k < |ends| ==> Succeeded(ends[k])
    ensures started == (if exitCode.None? then |Steps| else FirstFailure(ends) + 1)
    ensures started <= |Steps|
    ensures logger.entries == l.entries + EntriesOf(Trace(ends, started) + [Verdict(ends)], now)
  {
    var result;
    logger, started, result := RunSteps(l, ends, now);
    var final := match result
      case Returned(ok) => if ok then SuccessCall else AbortCall
      case Threw(e) => CatchCall(e);
    exitCode := if result == Returned(true) then None else Some(1);
    FinalEntries(l, logger.entries, ends, started, final, now);
    logger := Record(logger, final, now);
  }

  lemma TraceStep(l: Logger, before: seq<Entry>, after: seq<Entry>, ends: seq<Completion<Option<int>>>, i: nat, now: string)
    requires i < |ends| && i < |Steps|
    requires before == l.entries + EntriesOf(Trace(ends, i), now)
    requires after == before + EntriesOf(StepCalls(Steps[i], ends[i]), now)
    ensures after == l.entries + EntriesOf(Trace(ends, i + 1), now)
  {
    var calls := StepCalls(Steps[i], ends[i]);
    EntriesOfAppend(Trace(ends, i), calls, now);
    ConcatAssociative(l.entries, EntriesOf(Trace(ends, i), now), EntriesOf(calls, now));
  }

  lemma FinalEntries(l: Logger, before: seq<Entry>, ends: seq<Completion<Option<int>>>, n: nat, final: Call, now: string)
    requires n <= |ends| && n <= |Steps|
    requires before == l.entries + EntriesOf(Trace(ends, n), now)
    ensures before + [EntryOf(final, now)] == l.entries + EntriesOf(Trace(ends, n) + [final], now)
  {
    EntriesOfAppend(Trace(ends, n), [final], now);
    assert EntriesOf([final], now) == [EntryOf(final, now)];
    ConcatAssociative(l.entries, EntriesOf(Trace(ends, n), now), [EntryOf(final, now)]);
  }

  /** The trace of `n` spawned steps holds two calls per step: the start of step
      `k` at position `2k`, its close at `2k + 1`. */
  lemma {:induction false} TraceLength(ends: seq<Completion<Option<int>>>, n: nat)
    requires n <= |ends| && n <= |Steps|
    requires forall k :: 0 <= k < n ==> ends[k].Returned?
    ensures |Trace(ends, n)| == 2 * n
    ensures forall k :: 0 <= k < n ==> (Trace(ends, n)[2 * k] == StartCall(Steps[k])
                                        && Trace(ends, n)[2 * k + 1] == CloseCall(Steps[k], ends[k].value))
    decreases n
  {
    if n > 0 {
      TraceLength(ends, n - 1);
    }
  }
}

=== FILE: contrast.dfy ===
/** The colour-contrast audit: validation of `#RRGGBB` colours, decoding of their
    channels, the order in which a contrast ratio reports invalid colours, and the
    audit loop over the themes and colour pairs of the design manifest. The
    floating-point steps (luminance, rounding to two decimals, comparing with the
    required minimum) are parameters. */
module Contrast {
  import opened Text
  import opened Js
  import opened Validator
  import opened Logger

  predicate IsHexDigit(c: char) {
    '0' <= c <= '9' || 'a' <= c <= 'f' || 'A' <= c <= 'F'
  }

  /** The text matches `/^#([0-9a-fA-F]{6})$/`. */
  predicate IsHexColor(s: string) {
    |s| == 7 && s[0] == '#' && forall i :: 1 <= i < 7 ==> IsHexDigit(s[i])
  }

  /** A colour as the validator hands it out: '#' and six lower-case hex digits. */
  predicate IsCanonicalColor(s: string) {
    |s| == 7 && s[0] == '#' && forall i :: 1 <= i < 7 ==> ('0' <= s[i] <= '9' || 'a' <= s[i] <= 'f')
  }

  function NotAColorMessage(context: string): string {
    context + " muss ein Hex-Farbwert (#RRGGBB) sein."
  }

  /** `ensureHexColor`: a non-string fails exactly as the string check does; a
      string is accepted exactly when its trimmed text is '#' and six hex digits
      of either case, and the payload is that text in lower case. */
  function EnsureHexColor(value: JsValue, context: string): (r: Outcome<string>)
    ensures r.WellFormed()
    ensures !value.JsString? ==> r == EnsureString(value, context)
    ensures r.success <==> value.JsString? && IsHexColor(Trim(value.s))
    ensures value.JsString? && !r.success ==> r.message == NotAColorMessage(context)
    ensures r.success ==> && r.message == context + " ist eine Farbe"
                          && r.payload == Some(LowerAscii(Trim(value.s)))
                          && IsCanonicalColor(r.payload.value)
  {
    var text := EnsureString(value, context);
    if !text.success then text
    else
      var trimmed := Trim(text.payload.value);
      if !IsHexColor(trimmed) then Outcome(false, NotAColorMessage(context), None)
      else
        LowerHexColor(trimmed);
        Outcome(true, context + " ist eine Farbe", Some(LowerAscii(trimmed)))
  }

  /** Lower-casing a colour that matches the pattern gives a canonical colour. */
  lemma LowerHexColor(s: string)
    requires IsHexColor(s)
    ensures IsCanonicalColor(LowerAscii(s))
  {
  }

  /** A canonical colour is its own trimmed, lower-cased text. */
  lemma CanonicalIsFixed(s: string)
    requires IsCanonicalColor(s)
    ensures Trim(s) == s && LowerAscii(s) == s && IsHexColor(s)
  {
    assert !IsSpace(s[0]) && !IsSpace(s[6]);
    assert TrimStart(s) == s;
    assert TrimEnd(s) == s;
  }

  /** Validating the payload again accepts it and hands back the same payload. */
  lemma HexColorIdempotent(value: JsValue, context: string)
    requires EnsureHexColor(value, context).success
    ensures EnsureHexColor(JsString(EnsureHexColor(value, context).payload.value), context)
         == EnsureHexColor(value, context)
  {
    CanonicalIsFixed(EnsureHexColor(value, context).payload.value);
  }

  /** The value of a hex digit, as `parseInt(..., 16)` reads it. */
  function HexValue(c: char): (v: nat)
    requires IsHexDigit(c)
    ensures v < 16
  {
    if '0' <= c <= '9' then c as nat - '0' as nat
    else if 'a' <= c <= 'f' then c as nat - 'a' as nat + 10
    else c as nat - 'A' as nat + 10
  }

  /** The lower-case hex digit of a value below 16. */
  function HexChar(v: nat): (c: char)
    requires v < 16
    ensures '0' <= c <= '9' || 'a' <= c <= 'f'
  {
    if v < 10 then ('0' as int + v) as char else ('a' as int + v - 10) as char
  }

  datatype Rgb = Rgb(r: nat, g: nat, b: nat)

  predicate IsChannelTriple(c: Rgb) {
    c.r <= 255 && c.g <= 255 && c.b <= 255
  }

  /** The value of the two hex digits at positions `i` and `i + 1`. */
  function ChannelAt(color: string, i: nat): nat
    requires IsHexColor(color) && 1 <= i <= 5
  {
    16 * HexValue(color[i]) + HexValue(color[i + 1])
  }

  /** The integer channels `getRelativeLuminance` reads from a validated colour:
      digits 1-2, 3-4 and 5-6, each in 0..255. */
  function Channels(color: string): (c: Rgb)
    requires IsHexColor(color)
    ensures IsChannelTriple(c)
  {
    Rgb(ChannelAt(color, 1), ChannelAt(color, 3), ChannelAt(color, 5))
  }

  function HexPair(v: nat): (p: string)
    requires v <= 255
    ensures |p| == 2 && forall i :: 0 <= i < 2 ==> ('0' <= p[i] <= '9' || 'a' <= p[i] <= 'f')
  {
    [HexChar(v / 16), HexChar(v % 16)]
  }

  /** The canonical `#rrggbb` text of three channels. */
  function ColorText(c: Rgb): (s: string)
    requires IsChannelTriple(c)
    ensures IsCanonicalColor(s)
  {
    "#" + HexPair(c.r) + HexPair(c.g) + HexPair(c.b)
  }

  lemma HexCharValue(v: nat)
    requires v < 16
    ensures IsHexDigit(HexChar(v)) && HexValue(HexChar(v)) == v
  {
  }

  lemma HexValueChar(c: char)
    requires '0' <= c <= '9' || 'a' <= c <= 'f'
    ensures HexChar(HexValue(c)) == c
  {
  }

  /** Decoding the text of three channels gives the channels back. */
  lemma ChannelsOfColorText(c: Rgb)
    requires IsChannelTriple(c)
    ensures Channels(ColorText(c)) == c
  {
    var s := ColorText(c);
    HexCharValue(c.r / 16); HexCharValue(c.r % 16);
    HexCharValue(c.g / 16); HexCharValue(c.g % 16);
    HexCharValue(c.b / 16); HexCharValue(c.b % 16);
    assert s[1] == HexChar(c.r / 16) && s[2] == HexChar(c.r % 16);
    assert s[3] == HexChar(c.g / 16) && s[4] == HexChar(c.g % 16);
    assert s[5] == HexChar(c.b / 16) && s[6] == HexChar(c.b % 16);
  }

  lemma DivModSixteen(hi: nat, lo: nat)
    requires lo < 16
    ensures (16 * hi + lo) / 16 == hi && (16 * hi + lo) % 16 == lo
  {
  }

  /** The two digits of a canonical colour at `i` are the hex text of their channel. */
  lemma HexPairOfChannel(s: string, i: nat)
    requires IsCanonicalColor(s) && 1 <= i <= 5
    ensures IsHexColor(s) && ChannelAt(s, i) <= 255 && HexPair(ChannelAt(s, i)) == s[i..i + 2]
  {
    CanonicalIsFixed(s);
    DivModSixteen(HexValue(s[i]), HexValue(s[i + 1]));
    HexValueChar(s[i]);
    HexValueChar(s[i + 1]);
  }

  /** Re-encoding the channels of a canonical colour gives the colour back, so the
      channels carry all of a validated colour. */
  lemma ColorTextOfChannels(s: string)
    requires IsCanonicalColor(s)
    ensures IsHexColor(s) && ColorText(Channels(s)) == s
  {
    HexPairOfChannel(s, 1);
    HexPairOfChannel(s, 3);
    HexPairOfChannel(s, 5);
    ColorPieces(s);
  }

  lemma ColorPieces(s: string)
    requires |s| == 7 && s[0] == '#'
    ensures s == "#" + s[1..3] + s[3..5] + s[5..7]
  {
  }

  /** `(lighter + 0.05) / (darker + 0.05)` of two luminances. */
  function Ratio(l1: real, l2: real): (q: real)
    requires 0.0 <= l1 && 0.0 <= l2
    ensures q >= 1.0
  {
    var lighter := if l1 >= l2 then l1 else l2;
    var darker := if l1 >= l2 then l2 else l1;
    (lighter + 0.05) / (darker + 0.05)
  }

  lemma RatioSymmetric(l1: real, l2: real)
    requires 0.0 <= l1 && 0.0 <= l2
    ensures Ratio(l1, l2) == Ratio(l2, l1)
  {
  }

  /** Relative luminance is not modelled: any function with non-negative values. */
  type Luminance = f: string -> real | forall c :: 0.0 <= f(c) witness (c: string) => 0.0

  /** `getContrastRatio`: both colours are validated, but the foreground failure
      is reported first; the background failure only when the foreground is valid. */
  function GetContrastRatio(foreground: JsValue, background: JsValue, luminance: Luminance)
    : (r: Outcome<real>)
    ensures r.WellFormed()
    ensures !EnsureHexColor(foreground, "Vordergrundfarbe").success ==>
              r == Propagate(EnsureHexColor(foreground, "Vordergrundfarbe"))
    ensures EnsureHexColor(foreground, "Vordergrundfarbe").success
            && !EnsureHexColor(background, "Hintergrundfarbe").success ==>
              r == Propagate(EnsureHexColor(background, "Hintergrundfarbe"))
    ensures r.success <==> EnsureHexColor(foreground, "Vordergrundfarbe").success
                           && EnsureHexColor(background, "Hintergrundfarbe").success
    ensures r.success ==> r.message == "Kontrast berechnet"
    ensures r.success ==> r.payload.Some? && r.payload.value >= 1.0
  {
    var fg := EnsureHexColor(foreground, "Vordergrundfarbe");
    var bg := EnsureHexColor(background, "Hintergrundfarbe");
    if !fg.success then Propagate(fg)
    else if !bg.success then Propagate(bg)
    else
      var l1 := luminance(fg.payload.value);
      var l2 := luminance(bg.payload.value);
      var q := Ratio(l1, l2);
      Outcome(true, "Kontrast berechnet", Some(q))
  }

  /** Swapping foreground and background gives the same ratio. */
  lemma ContrastSymmetric(foreground: JsValue, background: JsValue, luminance: Luminance)
    requires GetContrastRatio(foreground, background, luminance).success
    ensures GetContrastRatio(background, foreground, luminance) == GetContrastRatio(foreground, background, luminance)
  {
    var a := EnsureHexColor(foreground, "Vordergrundfarbe");
    var b := EnsureHexColor(background, "Hintergrundfarbe");
    var a' := EnsureHexColor(foreground, "Hintergrundfarbe");
    var b' := EnsureHexColor(background, "Vordergrundfarbe");
    assert a'.payload == a.payload && b'.payload == b.payload;
    RatioSymmetric(luminance(a.payload.value), luminance(b.payload.value));
  }

  /** `mapThemeKey`: the token set of 'high-contrast' is called 'highContrast';
      every other theme name is its own key. */
  function MapThemeKey(themeName: string): (key: string)
    ensures themeName == "high-contrast" <==> key == "highContrast" && themeName != key
    ensures themeName != "high-contrast" ==> key == themeName
  {
    if themeName == "high-contrast" then "highContrast" else themeName
  }

  const DefaultMinimum: real := 4.5

  /** `manifest.accessibility?.minimumContrastRatio ?? 4.5`. */
  function ManifestMinimum(manifest: JsValue): (m: JsValue)
    ensures !Nullish(m)
    ensures var given := Property(Property(manifest, "accessibility"), "minimumContrastRatio");
            m == (if Nullish(given) then JsNumber(DefaultMinimum) else given)
  {
    Coalesce(Property(Property(manifest, "accessibility"), "minimumContrastRatio"), JsNumber(DefaultMinimum))
  }

  /** The minimum a pair must meet: its own `minimum` when that is a number, else
      the manifest-wide minimum, else 4.5. */
  function PairMinimum(pair: JsValue, manifest: JsValue): (m: JsValue)
    ensures Property(pair, "minimum").JsNumber? ==> m == Property(pair, "minimum")
    ensures !Property(pair, "minimum").JsNumber? ==> m == ManifestMinimum(manifest)
    ensures !Nullish(m)
  {
    var own := Property(pair, "minimum");
    if own.JsNumber? then own else ManifestMinimum(manifest)
  }

  /** The floating-point steps, left abstract: relative luminance of a colour,
      `Number(x.toFixed(2))`, and the comparison `rounded >= minimum`. */
  datatype FloatOps = FloatOps(luminance: Luminance, round2: real -> real, atLeast: (real, JsValue) -> bool)

  /** One entry of the audit's failure list. */
  datatype Failure = Failure(theme: string, pair: string, ratio: real, minimum: JsValue)

  function FailureValue(f: Failure): JsValue {
    JsObject(map["theme" := JsString(f.theme), "pair" := JsString(f.pair),
                 "ratio" := JsNumber(f.ratio), "minimum" := f.minimum])
  }

  function FailuresValue(fs: seq<Failure>): JsValue {
    JsArray(seq(|fs|, i requires 0 <= i < |fs| => FailureValue(fs[i])))
  }

  datatype Progress = Progress(logger: Logger, failures: seq<Failure>)

  function ErrorCall(message: string, meta: JsValue): Call {
    Call(Error, message, meta)
  }

  /** What the audit makes of one colour pair: the call it logs and the failure it
      records, if any. */
  datatype Verdict = Verdict(call: Call, failure: Option<Failure>)

  /** `pair?.foreground ?? ''` (or the background): the token name a pair gives. */
  function TokenName(pair: JsValue, side: string): JsValue {
    Coalesce(Property(pair, side), JsString(""))
  }

  /** Both token names of a pair are strings. */
  predicate TokensNamed(pair: JsValue) {
    TokenName(pair, "foreground").JsString? && TokenName(pair, "background").JsString?
  }

  /** The `fg auf bg` label of a pair whose token names are strings. */
  function PairLabel(pair: JsValue): string
    requires TokensNamed(pair)
  {
    TokenName(pair, "foreground").s + " auf " + TokenName(pair, "background").s
  }

  /** When a colour pair passes the audit: both token names are strings, both
      tokens resolve to truthy values in the theme's token set, both values are
      valid hex colours, and the contrast ratio rounded to two places reaches the
      pair's minimum. */
  predicate PairPasses(manifest: JsValue, tokenSet: JsValue, pair: JsValue, ops: FloatOps)
  {
    && TokensNamed(pair)
    && var fgValue := Property(tokenSet, TokenName(pair, "foreground").s);
       var bgValue := Property(tokenSet, TokenName(pair, "background").s);
       && Truthy(fgValue) && Truthy(bgValue)
       && var ratio := GetContrastRatio(fgValue, bgValue, ops.luminance);
          && ratio.success
          && ops.atLeast(ops.round2(ratio.payload.value), PairMinimum(pair, manifest))
  }

  /** The checks of one colour pair of a known theme, in the order the audit makes
      them: both token names, both token values, the contrast ratio, and the
      rounded ratio against the minimum. The pair fails exactly when one of those
      checks does, and then a failure is recorded and the logged entry is an
      error; a passing pair logs an info entry. A pair without token names is
      held to the manifest minimum, any other to its own. */
  function JudgePair(manifest: JsValue, themeName: string, tokenSet: JsValue, pair: JsValue,
                     ops: FloatOps): (v: Verdict)
    ensures v.failure.None? <==> v.call.level == Info
    ensures v.call.level == Info || v.call.level == Error
    ensures !TokensNamed(pair) ==>
              v.failure == Some(Failure(themeName, "Token unvollständig", 0.0, ManifestMinimum(manifest)))
    ensures TokensNamed(pair) && v.failure.Some? ==>
              && v.failure.value.theme == themeName
              && v.failure.value.pair == PairLabel(pair)
              && v.failure.value.minimum == PairMinimum(pair, manifest)
  {
    var fgToken := EnsureString(TokenName(pair, "foreground"), "Vordergrund-Token");
    var bgToken := EnsureString(TokenName(pair, "background"), "Hintergrund-Token");
    if !fgToken.success || !bgToken.success then
      var meta := JsObject(map["theme" := JsString(themeName), "pair" := pair,
                               "detail" := JsArray([JsString(fgToken.message), JsString(bgToken.message)])]);
      Verdict(ErrorCall("Token-Angaben fehlen", meta),
              Some(Failure(themeName, "Token unvollständig", 0.0, ManifestMinimum(manifest))))
    else
      var fg := fgToken.payload.value;
      var bg := bgToken.payload.value;
      var minimum := PairMinimum(pair, manifest);
      var fgValue := Property(tokenSet, fg);
      var bgValue := Property(tokenSet, bg);
      var pairText := fg + " auf " + bg;
      if !Truthy(fgValue) || !Truthy(bgValue) then
        var meta := JsObject(map["theme" := JsString(themeName), "pair" := pair]);
        Verdict(ErrorCall("Farbtokens konnten nicht aufgelöst werden", meta),
                Some(Failure(themeName, pairText, 0.0, minimum)))
      else
        var ratio := GetContrastRatio(fgValue, bgValue, ops.luminance);
        if !ratio.success then
          var meta := JsObject(map["theme" := JsString(themeName), "pair" := pair,
                                   "detail" := JsString(ratio.message)]);
          Verdict(ErrorCall("Kontrast konnte nicht berechnet werden", meta),
                  Some(Failure(themeName, pairText, 0.0, minimum)))
        else
          var rounded := ops.round2(ratio.payload.value);
          var meta := JsObject(map["theme" := JsString(themeName), "pair" := JsString(pairText),
                                   "ratio" := JsNumber(rounded), "minimum" := minimum]);
          if ops.atLeast(rounded, minimum) then
            Verdict(Call(Info, "✓ Kontrast erfüllt", meta), None)
          else
            Verdict(ErrorCall("✗ Kontrast zu niedrig", meta), Some(Failure(themeName, pairText, rounded, minimum)))
  }

  /** The audit of one colour pair of a known theme: exactly one entry is logged,
      earlier failures are kept, and one failure is added exactly when that entry
      is an error. */
  function AuditPair(p: Progress, manifest: JsValue, themeName: string, tokenSet: JsValue,
                     pair: JsValue, ops: FloatOps, now: string): (q: Progress)
    ensures p.failures <= q.failures && |q.failures| <= |p.failures| + 1
    ensures |q.logger.entries| == |p.logger.entries| + 1 && q.logger.entries[..|p.logger.entries|] == p.logger.entries
    ensures |q.failures| == |p.failures| + 1 <==> q.logger.entries[|p.logger.entries|].level == Error
  {
    var v := JudgePair(manifest, themeName, tokenSet, pair, ops);
    Progress(Record(p.logger, v.call, now),
             if v.failure.Some? then p.failures + [v.failure.value] else p.failures)
  }

  /** The audit of one pair of the given theme, as a step from one progress to
      the next. */
  function PairStep(manifest: JsValue, themeName: string, tokenSet: JsValue, ops: FloatOps, now: string)
    : (Progress, JsValue) -> Progress
  {
    (q: Progress, pair: JsValue) => AuditPair(q, manifest, themeName, tokenSet, pair, ops, now)
  }

  /** The steps applied to the items in order. */
  function FoldSteps<T>(p: Progress, items: seq<T>, step: (Progress, T) -> Progress): Progress
    decreases |items|
  {
    if |items| == 0 then p else FoldSteps(step(p, items[0]), items[1..], step)
  }

  /** When each step logs one entry and adds at most one failure, keeping the
      earlier ones, the fold logs one entry per item and adds at most one failure
      per item. */
  lemma {:induction false} FoldStepsGrows<T>(p: Progress, items: seq<T>, step: (Progress, T) -> Progress)
    requires forall q: Progress, x: T :: && q.failures <= step(q, x).failures
                                         && |step(q, x).failures| <= |q.failures| + 1
                                         && |step(q, x).logger.entries| == |q.logger.entries| + 1
    ensures var q := FoldSteps(p, items, step);
            && p.failures <= q.failures && |q.failures| <= |p.failures| + |items|
            && |q.logger.entries| == |p.logger.entries| + |items|
    decreases |items|
  {
    if |items| > 0 {
      FoldStepsGrows(step(p, items[0]), items[1..], step);
    }
  }

  /** The audit of the pairs of one theme, in order: one log entry per pair and at
      most one failure per pair. */
  function AuditPairs(p: Progress, manifest: JsValue, themeName: string, tokenSet: JsValue,
                      pairs: seq<JsValue>, ops: FloatOps, now: string): (q: Progress)
    ensures p.failures <= q.failures && |q.failures| <= |p.failures| + |pairs|
    ensures |q.logger.entries| == |p.logger.entries| + |pairs|
  {
    FoldStepsGrows(p, pairs, PairStep(manifest, themeName, tokenSet, ops, now));
    FoldSteps(p, pairs, PairStep(manifest, themeName, tokenSet, ops, now))
  }

  /** The `pairs` of a theme configuration, when it is an array. */
  function PairsOf(themeConfig: JsValue): seq<JsValue> {
    var v := Property(themeConfig, "pairs");
    if v.JsArray? then v.items else []
  }

  /** The audit of one theme configuration. An invalid or unknown theme adds one
      failure; a known theme adds at most one failure per pair. Reading `pairs`
      of a null or missing configuration throws, which ends the audit. */
  function AuditTheme(p: Progress, manifest: JsValue, colorTokens: JsValue, themeConfig: JsValue,
                      ops: FloatOps, now: string): (r: (Progress, Option<string>))
    ensures p.failures <= r.0.failures && |r.0.failures| <= |p.failures| + 1 + |PairsOf(themeConfig)|
    ensures r.1.Some? ==> Nullish(themeConfig) && r.0 == p
    ensures |r.0.logger.entries| >= |p.logger.entries|
  {
    var nameResult := EnsureString(Coalesce(Property(themeConfig, "theme"), JsString("")), "Theme-Name");
    if !nameResult.success then
      var meta := JsObject(map["detail" := JsString(nameResult.message), "theme" := themeConfig]);
      (Progress(Record(p.logger, ErrorCall("Theme-Name fehlt oder ist ungültig", meta), now),
                p.failures + [Failure("unbekannt", "unbekannt", 0.0, ManifestMinimum(manifest))]), None)
    else
      var themeName := nameResult.payload.value;
      var tokenSet := Property(colorTokens, MapThemeKey(themeName));
      if !Truthy(tokenSet) then
        var meta := JsObject(map["theme" := JsString(themeName)]);
        (Progress(Record(p.logger, ErrorCall("Unbekanntes Theme in der Kontrast-Konfiguration", meta), now),
                  p.failures + [Failure(themeName, "unbekannt", 0.0, Num(0))]), None)
      else
        match Get(themeConfig, "pairs")
        case Threw(e) => (p, Some(e))
        case Returned(_) =>
          (AuditPairs(p, manifest, themeName, tokenSet, PairsOf(themeConfig), ops, now), None)
  }

  /** The audit of all theme configurations, in order, stopping at a thrown error. */
  function AuditThemes(p: Progress, manifest: JsValue, colorTokens: JsValue, configs: seq<JsValue>,
                       ops: FloatOps, now: string): (r: (Progress, Option<string>))
    ensures p.failures <= r.0.failures
    ensures r.1.None? ==> |r.0.failures| <= |p.failures| + PairBudget(configs)
    ensures |r.0.logger.entries| >= |p.logger.entries|
    decreases |configs|
  {
    if |configs| == 0 then (p, None)
    else
      var (first, thrown) := AuditTheme(p, manifest, colorTokens, configs[0], ops, now);
      if thrown.Some? then (first, thrown)
      else AuditThemes(first, manifest, colorTokens, configs[1..], ops, now)
  }

  /** The most failures a list of theme configurations can produce: one per theme
      plus one per pair. */
  function PairBudget(configs: seq<JsValue>): nat
    decreases |configs|
  {
    if |configs| == 0 then 0 else 1 + |PairsOf(configs[0])| + PairBudget(configs[1..])
  }

  /** `loadManifest`: the read-and-parse step, given as its result. */
  function LoadManifest(loaded: Completion<JsValue>): (r: Outcome<JsValue>)
    ensures r.WellFormed() && (r.success <==> loaded.Returned?)
    ensures loaded.Returned? ==> r.payload == Some(loaded.value)
    ensures loaded.Threw? ==> r.message == "Manifest konnte nicht geladen werden: " + loaded.error
  {
    match loaded
    case Returned(v) => Outcome(true, "Manifest geladen", Some(v))
    case Threw(e) => Outcome(false, "Manifest konnte nicht geladen werden: " + e, None)
  }

  function ColorTokens(manifest: JsValue): JsValue {
    Property(Property(manifest, "tokens"), "color")
  }

  function ContrastConfig(manifest: JsValue): JsValue {
    Property(Property(manifest, "accessibility"), "colorContrast")
  }

  /** The manifest loaded, has an object of colour tokens and a list of theme configurations. */
  predicate ManifestUsable(loaded: Completion<JsValue>) {
    && loaded.Returned?
    && Truthy(ColorTokens(loaded.value)) && IsObjectType(ColorTokens(loaded.value))
    && ContrastConfig(loaded.value).JsArray?
  }

  /** How the audit script ended: its logger, its failure list, the error that
      escaped the loop (caught by the script's handler), and `process.exitCode`
      (`None` when left untouched). */
  datatype AuditEnd = AuditEnd(logger: Logger, failures: seq<Failure>, crash: Option<string>, exitCode: Option<int>)

  /** The part of `audit()` after the manifest checks: the loop over the theme
      configurations, then the verdict. */
  function AuditConfigs(manifest: JsValue, ops: FloatOps, l: Logger, now: string): (r: AuditEnd)
    requires ContrastConfig(manifest).JsArray?
    ensures r.exitCode.None? || r.exitCode == Some(1)
    ensures r.exitCode.None? <==> r.crash.None? && r.failures == []
    ensures r.crash.None? ==> |r.failures| <= PairBudget(ContrastConfig(manifest).items)
    ensures |r.logger.entries| > |l.entries|
  {
    var run := AuditThemes(Progress(l, []), manifest, ColorTokens(manifest),
                           ContrastConfig(manifest).items, ops, now);
    var p := run.0;
    var thrown := run.1;
    if thrown.Some? then
      var meta := JsObject(map["message" := JsString(thrown.value)]);
      AuditEnd(Record(p.logger, ErrorCall("Unbehandelter Fehler in der Kontrastprüfung", meta), now),
               p.failures, thrown, Some(1))
    else if |p.failures| > 0 then
      var meta := JsObject(map["failures" := FailuresValue(p.failures)]);
      AuditEnd(Record(p.logger, ErrorCall("Kontrastprüfung nicht bestanden", meta), now),
               p.failures, None, Some(1))
    else
      AuditEnd(Record(p.logger, Call(Info, "Kontrastprüfung erfolgreich abgeschlossen", JsObject(map[])), now),
               [], None, None)
  }

  /** `audit()` with its `.catch` handler. The exit code is set, and only ever to 1,
      exactly when the manifest is unusable, an error escaped, or a failure was
      recorded; failures come at most one per theme and one per pair. */
  function Audit(loaded: Completion<JsValue>, ops: FloatOps, l: Logger, now: string): (r: AuditEnd)
    ensures r.exitCode.None? || r.exitCode == Some(1)
    ensures r.exitCode.None? <==> ManifestUsable(loaded) && r.crash.None? && r.failures == []
    ensures ManifestUsable(loaded) && r.crash.None? ==>
              |r.failures| <= PairBudget(ContrastConfig(loaded.value).items)
    ensures |r.logger.entries| > |l.entries|
  {
    var m := LoadManifest(loaded);
    if !m.success then
      var meta := JsObject(map["detail" := JsString(m.message)]);
      AuditEnd(Record(l, ErrorCall("Manifest konnte nicht geladen werden", meta), now), [], None, Some(1))
    else
      var manifest := m.payload.value;
      var colorTokens := ColorTokens(manifest);
      if !Truthy(colorTokens) || !IsObjectType(colorTokens) then
        AuditEnd(Record(l, ErrorCall("Farbtokens fehlen im Manifest.", JsUndefined), now), [], None, Some(1))
      else if !ContrastConfig(manifest).JsArray? then
        AuditEnd(Record(l, ErrorCall("Kontrast-Konfiguration fehlt oder ist keine Liste.", JsUndefined), now),
                 [], None, Some(1))
      else
        AuditConfigs(manifest, ops, l, now)
  }

  /** The manifest checks, in order: a manifest that did not load, then one without
      an object of colour tokens, then one without a list of theme configurations.
      The first check that fails logs its own single error and sets exit code 1;
      no failure is recorded and no theme is audited. */
  lemma ManifestGuards(loaded: Completion<JsValue>, ops: FloatOps, l: Logger, now: string)
    ensures var r := Audit(loaded, ops, l, now);
            !ManifestUsable(loaded) ==> r.failures == [] && r.crash.None? && r.exitCode == Some(1)
                                        && |r.logger.entries| == |l.entries| + 1
    ensures loaded.Threw? ==>
              Audit(loaded, ops, l, now).logger
              == Record(l, ErrorCall("Manifest konnte nicht geladen werden",
                                     JsObject(map["detail" := JsString("Manifest konnte nicht geladen werden: " + loaded.error)])), now)
    ensures loaded.Returned? && !(Truthy(ColorTokens(loaded.value)) && IsObjectType(ColorTokens(loaded.value))) ==>
              Audit(loaded, ops, l, now).logger == Record(l, ErrorCall("Farbtokens fehlen im Manifest.", JsUndefined), now)
    ensures loaded.Returned? && Truthy(ColorTokens(loaded.value)) && IsObjectType(ColorTokens(loaded.value))
            && !ContrastConfig(loaded.value).JsArray? ==>
              Audit(loaded, ops, l, now).logger
              == Record(l, ErrorCall("Kontrast-Konfiguration fehlt oder ist keine Liste.", JsUndefined), now)
  {
    var r := Audit(loaded, ops, l, now);
    if loaded.Returned? && !ManifestUsable(loaded) {
      assert LoadManifest(loaded).payload == Some(loaded.value);
    }
  }

  /** How the audit ends once the manifest checks pass: an error that escaped the
      loop is logged as unhandled, recorded failures as the failed check that lists
      them, and otherwise the success message is logged. */
  lemma AuditVerdict(manifest: JsValue, ops: FloatOps, l: Logger, now: string)
    requires ContrastConfig(manifest).JsArray?
    ensures var r := AuditConfigs(manifest, ops, l, now);
            && |r.logger.entries| > 0
            && var last := r.logger.entries[|r.logger.entries| - 1];
               && (r.crash.Some? ==>
                     last.level == Error && last.message == "Unbehandelter Fehler in der Kontrastprüfung"
                     && last.meta == JsObject(map["message" := JsString(r.crash.value)]))
               && (r.crash.None? && r.failures != [] ==>
                     last.level == Error && last.message == "Kontrastprüfung nicht bestanden"
                     && last.meta == JsObject(map["failures" := FailuresValue(r.failures)]))
               && (r.crash.None? && r.failures == [] ==>
                     last.level == Info && last.message == "Kontrastprüfung erfolgreich abgeschlossen")
  {
    var run := AuditThemes(Progress(l, []), manifest, ColorTokens(manifest),
                           ContrastConfig(manifest).items, ops, now);
    var r := AuditConfigs(manifest, ops, l, now);
    if run.1.Some? {
      assert r.logger.entries[|r.logger.entries| - 1]
          == EntryOf(ErrorCall("Unbehandelter Fehler in der Kontrastprüfung",
                               JsObject(map["message" := JsString(run.1.value)])), now);
    } else if |run.0.failures| > 0 {
      assert r.logger.entries[|r.logger.entries| - 1]
          == EntryOf(ErrorCall("Kontrastprüfung nicht bestanden",
                               JsObject(map["failures" := FailuresValue(run.0.failures)])), now);
    }
  }

  // ---------------------------------------------------------------------------
  // When the audit passes

  /** A theme configuration passes: it is not null or missing, its theme name is a
      string whose token set is truthy, and every one of its pairs passes. */
  predicate ThemePasses(manifest: JsValue, colorTokens: JsValue, themeConfig: JsValue, ops: FloatOps)
  {
    var name := Coalesce(Property(themeConfig, "theme"), JsString(""));
    && !Nullish(themeConfig)
    && name.JsString?
    && Truthy(Property(colorTokens, MapThemeKey(name.s)))
    && forall i :: 0 <= i < |PairsOf(themeConfig)| ==>
         PairPasses(manifest, Property(colorTokens, MapThemeKey(name.s)), PairsOf(themeConfig)[i], ops)
  }

  /** A pair gets no failure exactly when it passes. */
  lemma JudgePairPasses(manifest: JsValue, themeName: string, tokenSet: JsValue, pair: JsValue, ops: FloatOps)
    ensures JudgePair(manifest, themeName, tokenSet, pair, ops).failure.None? <==> PairPasses(manifest, tokenSet, pair, ops)
  {
  }

  /** Auditing one pair keeps the failure list exactly when the pair passes. */
  lemma AuditPairPasses(p: Progress, manifest: JsValue, themeName: string, tokenSet: JsValue,
                        pair: JsValue, ops: FloatOps, now: string)
    ensures AuditPair(p, manifest, themeName, tokenSet, pair, ops, now).failures == p.failures
            <==> PairPasses(manifest, tokenSet, pair, ops)
  {
    JudgePairPasses(manifest, themeName, tokenSet, pair, ops);
  }

  /** All elements satisfy `ok` exactly when the first does and all of the rest do. */
  lemma EveryFirstRest<T>(xs: seq<T>, ok: T -> bool)
    requires |xs| > 0
    ensures (forall i :: 0 <= i < |xs| ==> ok(xs[i]))
            <==> ok(xs[0]) && forall i :: 0 <= i < |xs[1..]| ==> ok(xs[1..][i])
  {
    assert forall i :: 0 <= i < |xs[1..]| ==> xs[1..][i] == xs[i + 1];
    assert forall i :: 0 < i < |xs| ==> xs[i] == xs[1..][i - 1];
  }

  /** A list squeezed between a prefix and that same prefix is the prefix. */
  lemma PrefixSqueeze<T>(a: seq<T>, b: seq<T>, c: seq<T>)
    requires a <= b && b <= c && c == a
    ensures b == a
  {
  }

  /** When no step drops a failure and a step keeps the failure list exactly
      when its item satisfies `ok`, the fold keeps the failure list exactly when
      every item satisfies `ok`. */
  lemma {:induction false} FoldStepsClean<T>(p: Progress, items: seq<T>, step: (Progress, T) -> Progress,
                                             ok: T -> bool)
    requires forall q: Progress, x: T :: q.failures <= step(q, x).failures
    requires forall q: Progress, x: T :: step(q, x).failures == q.failures <==> ok(x)
    ensures FoldSteps(p, items, step).failures == p.failures <==> forall i :: 0 <= i < |items| ==> ok(items[i])
    decreases |items|
  {
    if |items| > 0 {
      var first := step(p, items[0]);
      FoldStepsClean(first, items[1..], step, ok);
      FoldStepsKeeps(first, items[1..], step);
      var q := FoldSteps(first, items[1..], step);
      if q.failures == p.failures {
        PrefixSqueeze(p.failures, first.failures, q.failures);
      }
      EveryFirstRest(items, ok);
    }
  }

  /** When no step drops a failure, neither does the fold. */
  lemma {:induction false} FoldStepsKeeps<T>(p: Progress, items: seq<T>, step: (Progress, T) -> Progress)
    requires forall q: Progress, x: T :: q.failures <= step(q, x).failures
    ensures p.failures <= FoldSteps(p, items, step).failures
    decreases |items|
  {
    if |items| > 0 {
      FoldStepsKeeps(step(p, items[0]), items[1..], step);
    }
  }

  /** Auditing a list of pairs adds no failure exactly when every pair passes. */
  lemma AuditPairsClean(p: Progress, manifest: JsValue, themeName: string, tokenSet: JsValue,
                        pairs: seq<JsValue>, ops: FloatOps, now: string)
    ensures AuditPairs(p, manifest, themeName, tokenSet, pairs, ops, now).failures == p.failures
            <==> forall i :: 0 <= i < |pairs| ==> PairPasses(manifest, tokenSet, pairs[i], ops)
  {
    var step := PairStep(manifest, themeName, tokenSet, ops, now);
    forall q: Progress, x: JsValue
      ensures q.failures <= step(q, x).failures
      ensures step(q, x).failures == q.failures <==> PairPasses(manifest, tokenSet, x, ops)
    {
      AuditPairPasses(q, manifest, themeName, tokenSet, x, ops, now);
    }
    FoldStepsClean(p, pairs, step, (x: JsValue) => PairPasses(manifest, tokenSet, x, ops));
  }

  /** Auditing one theme configuration neither throws nor adds a failure exactly
      when the configuration passes. */
  lemma AuditThemeClean(p: Progress, manifest: JsValue, colorTokens: JsValue, themeConfig: JsValue,
                        ops: FloatOps, now: string)
    ensures var r := AuditTheme(p, manifest, colorTokens, themeConfig, ops, now);
            r.1.None? && r.0.failures == p.failures <==> ThemePasses(manifest, colorTokens, themeConfig, ops)
  {
    var name := Coalesce(Property(themeConfig, "theme"), JsString(""));
    if name.JsString? {
      var tokenSet := Property(colorTokens, MapThemeKey(name.s));
      AuditPairsClean(p, manifest, name.s, tokenSet, PairsOf(themeConfig), ops, now);
    }
  }

  /** A fold whose step may throw: it stops at the first throw. */
  function FoldThrowing<T>(p: Progress, items: seq<T>, step: (Progress, T) -> (Progress, Option<string>))
    : (Progress, Option<string>)
    decreases |items|
  {
    if |items| == 0 then (p, None)
    else
      var (first, thrown) := step(p, items[0]);
      if thrown.Some? then (first, thrown) else FoldThrowing(first, items[1..], step)
  }

  /** The loop body of `audit()` over the theme configurations. */
  function ThemeStep(manifest: JsValue, colorTokens: JsValue, ops: FloatOps, now: string)
    : (Progress, JsValue) -> (Progress, Option<string>)
  {
    (q: Progress, c: JsValue) => AuditTheme(q, manifest, colorTokens, c, ops, now)
  }

  /** The loop over the theme configurations is the throwing fold of its body. */
  lemma {:induction false} AuditThemesFold(p: Progress, manifest: JsValue, colorTokens: JsValue,
                                           configs: seq<JsValue>, ops: FloatOps, now: string)
    ensures AuditThemes(p, manifest, colorTokens, configs, ops, now)
            == FoldThrowing(p, configs, ThemeStep(manifest, colorTokens, ops, now))
    decreases |configs|
  {
    if |configs| > 0 {
      AuditThemesFold(AuditTheme(p, manifest, colorTokens, configs[0], ops, now).0,
                      manifest, colorTokens, configs[1..], ops, now);
    }
  }

  /** When no step drops a failure, neither does the throwing fold. */
  lemma {:induction false} FoldThrowingKeeps<T>(p: Progress, items: seq<T>,
                                                step: (Progress, T) -> (Progress, Option<string>))
    requires forall q: Progress, x: T :: q.failures <= step(q, x).0.failures
    ensures p.failures <= FoldThrowing(p, items, step).0.failures
    decreases |items|
  {
    if |items| > 0 && step(p, items[0]).1.None? {
      FoldThrowingKeeps(step(p, items[0]).0, items[1..], step);
    }
  }

  /** When no step drops a failure and a step neither throws nor adds a failure
      exactly when its item satisfies `ok`, the throwing fold does neither exactly
      when every item satisfies `ok`. */
  lemma {:induction false} FoldThrowingClean<T>(p: Progress, items: seq<T>,
                                                step: (Progress, T) -> (Progress, Option<string>), ok: T -> bool)
    requires forall q: Progress, x: T :: q.failures <= step(q, x).0.failures
    requires forall q: Progress, x: T :: step(q, x).1.None? && step(q, x).0.failures == q.failures <==> ok(x)
    ensures var r := FoldThrowing(p, items, step);
            r.1.None? && r.0.failures == p.failures <==> forall i :: 0 <= i < |items| ==> ok(items[i])
    decreases |items|
  {
    if |items| > 0 {
      var first := step(p, items[0]);
      if first.1.None? {
        FoldThrowingClean(first.0, items[1..], step, ok);
        FoldThrowingKeeps(first.0, items[1..], step);
        var r := FoldThrowing(first.0, items[1..], step);
        if r.1.None? && r.0.failures == p.failures {
          PrefixSqueeze(p.failures, first.0.failures, r.0.failures);
        }
      }
      EveryFirstRest(items, ok);
    }
  }

  /** One step of the loop keeps the failures, and neither throws nor adds one
      exactly when its configuration passes. */
  lemma ThemeStepClean(q: Progress, manifest: JsValue, colorTokens: JsValue, c: JsValue, ops: FloatOps, now: string)
    ensures var step := ThemeStep(manifest, colorTokens, ops, now);
            && q.failures <= step(q, c).0.failures
            && (step(q, c).1.None? && step(q, c).0.failures == q.failures <==> ThemePasses(manifest, colorTokens, c, ops))
  {
    AuditThemeClean(q, manifest, colorTokens, c, ops, now);
  }

  /** Auditing a list of theme configurations neither throws nor adds a failure
      exactly when every configuration passes. */
  lemma AuditThemesClean(p: Progress, manifest: JsValue, colorTokens: JsValue,
                         configs: seq<JsValue>, ops: FloatOps, now: string)
    ensures var r := AuditThemes(p, manifest, colorTokens, configs, ops, now);
            r.1.None? && r.0.failures == p.failures
            <==> forall i :: 0 <= i < |configs| ==> ThemePasses(manifest, colorTokens, configs[i], ops)
  {
    var step := ThemeStep(manifest, colorTokens, ops, now);
    var ok := (c: JsValue) => ThemePasses(manifest, colorTokens, c, ops);
    forall q: Progress, c: JsValue
      ensures q.failures <= step(q, c).0.failures
      ensures step(q, c).1.None? && step(q, c).0.failures == q.failures <==> ok(c)
    {
      ThemeStepClean(q, manifest, colorTokens, c, ops, now);
    }
    AuditThemesFold(p, manifest, colorTokens, configs, ops, now);
    FoldThrowingClean(p, configs, step, ok);
  }

  /** The audit leaves the exit code alone exactly when the manifest is usable and
      every theme configuration in it passes: its token set exists and each of its
      colour pairs reaches its minimum contrast. */
  lemma AuditPasses(loaded: Completion<JsValue>, ops: FloatOps, l: Logger, now: string)
    ensures Audit(loaded, ops, l, now).exitCode.None?
            <==> && ManifestUsable(loaded)
                 && forall i :: 0 <= i < |ContrastConfig(loaded.value).items| ==>
                      ThemePasses(loaded.value, ColorTokens(loaded.value), ContrastConfig(loaded.value).items[i], ops)
  {
    if ManifestUsable(loaded) {
      var manifest := loaded.value;
      AuditThemesClean(Progress(l, []), manifest, ColorTokens(manifest), ContrastConfig(manifest).items, ops, now);
    }
  }
}

=== FILE: js.dfy ===
/** The JavaScript values the core receives untyped, and the few language
    operations it applies to them: `Boolean(v)`, `typeof`, `??`, property reads,
    and the string conversion `Array.prototype.join` uses. */
module Js {
  import opened Text

  datatype Option<T> = None | Some(value: T)

  /** How a JavaScript computation ended: with a value, or by throwing an error
      whose `message` is `error`. */
  datatype Completion<T> = Returned(value: T) | Threw(error: string)

  /** A JavaScript value. Numbers are reals (NaN and the infinities are not
      represented); objects are their own enumerable data properties. */
  datatype JsValue =
    | JsUndefined
    | JsNull
    | JsBool(b: bool)
    | JsNumber(n: real)
    | JsString(s: string)
    | JsArray(items: seq<JsValue>)
    | JsObject(fields: map<string, JsValue>)

  function Num(n: int): JsValue {
    JsNumber(n as real)
  }

  /** `Boolean(v)`: false exactly for undefined, null, false, 0 and "". */
  predicate Truthy(v: JsValue) {
    match v
    case JsUndefined => false
    case JsNull => false
    case JsBool(b) => b
    case JsNumber(n) => n != 0.0
    case JsString(s) => s != ""
    case _ => true
  }

  predicate Nullish(v: JsValue) {
    v.JsUndefined? || v.JsNull?
  }

  /** `typeof v === 'object'`. */
  predicate IsObjectType(v: JsValue) {
    v.JsNull? || v.JsArray? || v.JsObject?
  }

  /** `v ?? fallback`. */
  function Coalesce(v: JsValue, fallback: JsValue): JsValue {
    if Nullish(v) then fallback else v
  }

  /** `v?.[key]`: the own property of an object, undefined for everything else. */
  function Property(v: JsValue, key: string): JsValue {
    if v.JsObject? && key in v.fields then v.fields[key] else JsUndefined
  }

  /** `v[key]` without the optional chain: reading from null or undefined throws
      the TypeError V8 raises. */
  function Get(v: JsValue, key: string): Completion<JsValue> {
    if Nullish(v) then
      Threw("Cannot read properties of " + (if v.JsNull? then "null" else "undefined")
            + " (reading '" + key + "')")
    else Returned(Property(v, key))
  }

  /** The integer part of a real, truncated toward zero. */
  function Truncate(n: real): int {
    if n >= 0.0 then n.Floor else -((-n).Floor)
  }

  /** `String(v)`. */
  function ToText(v: JsValue): string
    decreases v, 0
  {
    match v
    case JsUndefined => "undefined"
    case JsNull => "null"
    case JsBool(b) => if b then "true" else "false"
    case JsNumber(n) => IntText(Truncate(n))
    case JsString(s) => s
    case JsArray(items) => Join(seq(|items|, i requires 0 <= i < |items| => ElementText(items[i])), ",")
    case JsObject(_) => "[object Object]"
  }

  /** The text `Array.prototype.join` writes for one element: nothing for null
      and undefined, `String(v)` otherwise. */
  function ElementText(v: JsValue): string
    decreases v, 1
  {
    if Nullish(v) then "" else ToText(v)
  }

  /** `items.join(sep)`. */
  function JoinValues(items: seq<JsValue>, sep: string): string {
    Join(seq(|items|, i requires 0 <= i < |items| => ElementText(items[i])), sep)
  }
}

=== FILE: lint.dfy ===
/** The whitespace linter: it takes the .js, .html, .css and .json files found under
    'src' and 'design', splits each on '\n', and reports every line that ends in
    white space and every line that holds a tab. The directory walk and the file
    reads are inputs. */
module Lint {
  import opened Text
  import opened Js
  import opened Logger
  import opened PosixPath

  /** A file the directory walk found: its entry name, its full path, and how
      reading it went. */
  datatype SourceFile = SourceFile(name: string, path: string, content: Completion<string>)

  /** The extensions the linter checks. */
  const LintExtensions: seq<string> := [".js", ".html", ".css", ".json"]

  /** The name matches `/\.(js|html|css|json)$/`: it ends in one of the four
      extensions. In terms of `path.extname`: the name's extension is one of the
      four, or the name is one of them itself (a dot file such as '.js' matches
      although its extension is ""). */
  predicate IsLintTarget(name: string)
    ensures IsLintTarget(name) <==> BaseExtension(name) in LintExtensions || name in LintExtensions
  {
    LintExtensionsShape();
    EndsWithAny(name, LintExtensions);
    exists i :: 0 <= i < |LintExtensions| && EndsWith(name, LintExtensions[i])
  }

  lemma LintExtensionsShape()
    ensures forall i :: 0 <= i < |LintExtensions| ==> ExtensionShape(LintExtensions[i])
  {
    assert ".js"[1..] == "js" && ".html"[1..] == "html";
    assert ".css"[1..] == "css" && ".json"[1..] == "json";
  }

  /** A name ends in one of a list of extensions exactly when its own extension
      is in the list or the name is itself one of them. */
  lemma {:induction false} EndsWithAny(name: string, es: seq<string>)
    requires forall i :: 0 <= i < |es| ==> ExtensionShape(es[i])
    ensures (exists i :: 0 <= i < |es| && EndsWith(name, es[i])) <==> BaseExtension(name) in es || name in es
  {
    forall i | 0 <= i < |es|
      ensures EndsWith(name, es[i]) <==> BaseExtension(name) == es[i] || name == es[i]
    {
      EndsWithExtension(name, es[i]);
    }
    if BaseExtension(name) in es || name in es {
      var i :| 0 <= i < |es| && (BaseExtension(name) == es[i] || name == es[i]);
      assert EndsWith(name, es[i]);
    }
  }

  /** The files the linter keeps, in walk order. */
  function Targets(files: seq<SourceFile>): (r: seq<SourceFile>)
    ensures forall f :: f in r <==> f in files && IsLintTarget(f.name)
    ensures |r| <= |files|
    decreases |files|
  {
    if |files| == 0 then []
    else (if IsLintTarget(files[0].name) then [files[0]] else []) + Targets(files[1..])
  }

  /** The filter keeps the walk order: the targets of two lists of files, one
      after the other, are the targets of the first followed by those of the
      second. */
  lemma {:induction false} TargetsAppend(a: seq<SourceFile>, b: seq<SourceFile>)
    ensures Targets(a + b) == Targets(a) + Targets(b)
    decreases |a|
  {
    if |a| > 0 {
      assert (a + b)[0] == a[0];
      assert (a + b)[1..] == a[1..] + b;
      TargetsAppend(a[1..], b);
    } else {
      assert a + b == b;
    }
  }

  /** A single file is kept exactly when its name is a lint target. */
  lemma TargetsOne(f: SourceFile)
    ensures Targets([f]) == if IsLintTarget(f.name) then [f] else []
  {
    assert [f][1..] == [];
  }

  datatype Finding = TrailingWhitespace(file: string, line: nat) | TabCharacter(file: string, line: nat)

  /** The line matches `/\s+$/`: it is non-empty and its last character is white space. */
  predicate HasTrailingSpace(line: string) {
    |line| > 0 && IsSpace(line[|line| - 1])
  }

  /** The trailing-whitespace test agrees with `trimEnd`: a line ends in white
      space exactly when trimming its end changes it. */
  lemma TrailingSpaceIffTrimEndChanges(line: string)
    ensures HasTrailingSpace(line) <==> TrimEnd(line) != line
  {
    if TrimEnd(line) != line {
      assert |TrimEnd(line)| < |line|;
    }
  }

  /** The findings of one line with the given 1-based number: trailing white
      space first, then a tab. */
  function LineFindings(file: string, line: string, number: nat): (r: seq<Finding>)
    ensures |r| <= 2
    ensures forall f :: f in r ==> f.file == file && f.line == number
  {
    (if HasTrailingSpace(line) then [TrailingWhitespace(file, number)] else [])
    + (if '\t' in line then [TabCharacter(file, number)] else [])
  }

  /** A line gets a trailing-whitespace finding exactly when it ends in white
      space and a tab finding exactly when it holds a tab; every finding carries
      the line's file and number, and the trailing one comes first. */
  lemma LineFindingsIff(file: string, line: string, number: nat)
    ensures TrailingWhitespace(file, number) in LineFindings(file, line, number) <==> HasTrailingSpace(line)
    ensures TabCharacter(file, number) in LineFindings(file, line, number) <==> '\t' in line
    ensures forall f :: f in LineFindings(file, line, number) ==> f.file == file && f.line == number
    ensures |LineFindings(file, line, number)| == 2 ==>
              LineFindings(file, line, number)[0].TrailingWhitespace?
              && LineFindings(file, line, number)[1].TabCharacter?
  {
  }

  /** The findings of the lines from index `i` on, where `g` gives the findings of
      one line and its 1-based number: line `i` has number `i + 1`. */
  function Numbered(lines: seq<string>, i: nat, g: (string, nat) -> seq<Finding>): seq<Finding>
    decreases |lines| - i
  {
    if i >= |lines| then []
    else g(lines[i], i + 1) + Numbered(lines, i + 1, g)
  }

  /** When the findings of a line carry its number, a finding is among those of the
      lines from index `i` on exactly when its line lies in that range and that
      line reports it. */
  lemma {:induction false} NumberedAt(lines: seq<string>, i: nat, g: (string, nat) -> seq<Finding>, x: Finding)
    requires forall line: string, n: nat, y :: y in g(line, n) ==> y.line == n
    ensures x in Numbered(lines, i, g) <==> i < x.line <= |lines| && x in g(lines[x.line - 1], x.line)
    decreases |lines| - i
  {
    if i < |lines| {
      NumberedAt(lines, i + 1, g, x);
    }
  }

  /** The findings of a list of lines, the first of which is line 1. */
  function LinesFindings(file: string, lines: seq<string>): seq<Finding> {
    Numbered(lines, 0, (line: string, n: nat) => LineFindings(file, line, n))
  }

  /** A finding belongs to the line its number names. */
  lemma LinesFindingAt(file: string, lines: seq<string>, x: Finding)
    ensures x in LinesFindings(file, lines) <==> 1 <= x.line <= |lines| && x in LineFindings(file, lines[x.line - 1], x.line)
  {
    var g := (line: string, n: nat) => LineFindings(file, line, n);
    forall line: string, m: nat, y | y in g(line, m)
      ensures y.line == m
    {
      LineFindingsIff(file, line, m);
    }
    NumberedAt(lines, 0, g, x);
  }

  /** Line `n` (1-based) gets a trailing-whitespace finding exactly when it ends in
      white space, and no such finding names another file. */
  lemma TrailingFindingIff(file: string, lines: seq<string>, f: string, n: nat)
    ensures TrailingWhitespace(f, n) in LinesFindings(file, lines)
            <==> f == file && 1 <= n <= |lines| && HasTrailingSpace(lines[n - 1])
  {
    LinesFindingAt(file, lines, TrailingWhitespace(f, n));
    if 1 <= n <= |lines| {
      LineFindingsIff(file, lines[n - 1], n);
    }
  }

  /** Line `n` (1-based) gets a tab finding exactly when it holds a tab, and no
      such finding names another file. */
  lemma TabFindingIff(file: string, lines: seq<string>, f: string, n: nat)
    ensures TabCharacter(f, n) in LinesFindings(file, lines)
            <==> f == file && 1 <= n <= |lines| && '\t' in lines[n - 1]
  {
    LinesFindingAt(file, lines, TabCharacter(f, n));
    if 1 <= n <= |lines| {
      LineFindingsIff(file, lines[n - 1], n);
    }
  }

  /** The findings of one file's text, split into lines on '\n': each names the
      file and one of its lines. */
  function FileFindings(file: string, text: string): (r: seq<Finding>)
    ensures forall f :: f in r ==> f.file == file && 1 <= f.line <= |Split(text, '\n')|
  {
    var lines := Split(text, '\n');
    var r := LinesFindings(file, lines);
    assert forall f :: f in r ==> f.file == file && 1 <= f.line <= |lines| by {
      forall f | f in r
        ensures f.file == file && 1 <= f.line <= |lines|
      {
        LinesFindingAt(file, lines, f);
      }
    }
    r
  }

  /** For a whole file: line `n` (1-based, lines split on '\n') gets a
      trailing-whitespace finding exactly when it ends in white space, and a tab
      finding exactly when it holds a tab. */
  lemma FileFindingIff(file: string, text: string, f: string, n: nat)
    ensures var lines := Split(text, '\n');
            && (TrailingWhitespace(f, n) in FileFindings(file, text)
                <==> f == file && 1 <= n <= |lines| && HasTrailingSpace(lines[n - 1]))
            && (TabCharacter(f, n) in FileFindings(file, text)
                <==> f == file && 1 <= n <= |lines| && '\t' in lines[n - 1])
  {
    TrailingFindingIff(file, Split(text, '\n'), f, n);
    TabFindingIff(file, Split(text, '\n'), f, n);
  }

  predicate AllRead(files: seq<SourceFile>) {
    forall i :: 0 <= i < |files| ==> files[i].content.Returned?
  }

  /** The findings of all files, file by file. */
  function AllFindings(files: seq<SourceFile>): seq<Finding>
    requires AllRead(files)
    decreases |files|
  {
    if |files| == 0 then []
    else FileFindings(files[0].path, files[0].content.value) + AllFindings(files[1..])
  }

  /** The warning the linter logs for a finding. */
  function WarnCall(f: Finding): Call {
    var meta := JsObject(map["file" := JsString(f.file), "line" := Num(f.line)]);
    match f
    case TrailingWhitespace(_, _) => Call(Warn, "Trailing whitespace gefunden", meta)
    case TabCharacter(_, _) => Call(Warn, "Tabulator gefunden – bitte Leerzeichen nutzen", meta)
  }

  function WarnCalls(fs: seq<Finding>): (cs: seq<Call>)
    ensures |cs| == |fs|
    ensures forall i :: 0 <= i < |fs| ==> cs[i] == WarnCall(fs[i])
  {
    seq(|fs|, i requires 0 <= i < |fs| => WarnCall(fs[i]))
  }

  lemma AllReadTail(files: seq<SourceFile>)
    requires |files| > 0
    ensures AllRead(files) <==> files[0].content.Returned? && AllRead(files[1..])
  {
    if files[0].content.Returned? && AllRead(files[1..]) {
      forall i | 0 <= i < |files|
        ensures files[i].content.Returned?
      {
        if i > 0 {
          assert files[i] == files[1..][i - 1];
        }
      }
    }
  }

  lemma WarnCallsAppend(a: seq<Finding>, b: seq<Finding>)
    ensures WarnCalls(a + b) == WarnCalls(a) + WarnCalls(b)
  {
  }

  /** The loop of `run()` over the kept files: read each in turn and log its
      findings; a failed read ends the loop with that error. The logger receives one
      warning per finding, in order. */
  function Scan(l: Logger, files: seq<SourceFile>, now: string): (r: (Logger, seq<Finding>, Option<string>))
    ensures r.2.None? <==> AllRead(files)
    ensures AllRead(files) ==> r.1 == AllFindings(files)
    ensures r.0 == RecordAll(l, WarnCalls(r.1), now)
    decreases |files|
  {
    if |files| == 0 then (l, [], None)
    else
      AllReadTail(files);
      match files[0].content
      case Threw(e) =>
        assert WarnCalls([]) == [];
        (l, [], Some(e))
      case Returned(text) =>
        var fs := FileFindings(files[0].path, text);
        var rest := Scan(RecordAll(l, WarnCalls(fs), now), files[1..], now);
        WarnCallsAppend(fs, rest.1);
        RecordAllAppend(l, WarnCalls(fs), WarnCalls(rest.1), now);
        (rest.0, fs + rest.1, rest.2)
  }

  /** How the lint script ended: its logger, the findings, the error its handler
      caught, and `process.exitCode` (`None` when left untouched). */
  datatype LintEnd = LintEnd(logger: Logger, findings: seq<Finding>, crash: Option<string>, exitCode: Option<int>)

  /** The entry that closes a run. */
  function FinalCall(findings: seq<Finding>, crash: Option<string>, fileCount: nat): Call {
    if crash.Some? then Call(Error, "Lint Script Fehler", JsObject(map["message" := JsString(crash.value)]))
    else if |findings| > 0 then Call(Error, "Lint fehlgeschlagen", JsObject(map[]))
    else Call(Info, "Lint erfolgreich", JsObject(map["files" := Num(fileCount)]))
  }

  /** `run()` with its `.catch` handler, given the result of the directory walk.
      The exit code is 1 exactly when the walk or a read failed or some finding was
      reported, and is left alone otherwise. The log holds one warning per finding,
      in order, then one closing entry; a clean run reports the number of files. */
  function Run(l: Logger, walked: Completion<seq<SourceFile>>, now: string): (r: LintEnd)
    ensures r.exitCode.None? || r.exitCode == Some(1)
    ensures r.exitCode.None? <==> && walked.Returned? && AllRead(Targets(walked.value))
                                   && AllFindings(Targets(walked.value)) == []
    ensures walked.Returned? && AllRead(Targets(walked.value)) ==>
              r.crash.None? && r.findings == AllFindings(Targets(walked.value))
    ensures walked.Threw? ==> r.crash == Some(walked.error) && r.findings == []
    ensures |r.logger.entries| == |l.entries| + |r.findings| + 1
    ensures r.logger.entries[..|l.entries| + |r.findings|] == l.entries + EntriesOf(WarnCalls(r.findings), now)
    ensures r.exitCode.None? ==>
              r.logger.entries[|r.logger.entries| - 1]
              == Entry(Info, "Lint erfolgreich", now, JsObject(map["files" := Num(|Targets(walked.value)|)]))
  {
    match walked
    case Threw(e) =>
      assert WarnCalls([]) == [];
      LintEnd(Record(l, FinalCall([], Some(e), 0), now), [], Some(e), Some(1))
    case Returned(files) =>
      var targets := Targets(files);
      var scan := Scan(l, targets, now);
      EntriesAfterCalls(l, WarnCalls(scan.1), now);
      var logger := Record(scan.0, FinalCall(scan.1, scan.2, |targets|), now);
      assert logger.entries[..|l.entries| + |scan.1|] == scan.0.entries;
      LintEnd(logger, scan.1, scan.2, if scan.2.None? && |scan.1| == 0 then None else Some(1))
  }
}

=== FILE: logger.dfy ===
/** The structured logger: a debug flag, a fixed namespace, an append-only list of
    entries, and the lines echoed to the console. The state is a value; every
    operation returns the next state, and the clock is a timestamp argument. */
module Logger {
  import opened Text
  import opened Js
  import opened Validator

  datatype Level = Info | Warn | Error | Debug

  /** The console methods the logger writes to. */
  datatype Channel = ConsoleLog | ConsoleInfo | ConsoleWarn | ConsoleError

  datatype Entry = Entry(level: Level, message: string, timestamp: string, meta: JsValue)

  /** One console call: the formatted line and the `meta` value passed beside it. */
  datatype Echo = Echo(channel: Channel, line: string, meta: JsValue)

  datatype Logger = Logger(debug: bool, namespace: string, entries: seq<Entry>, echoes: seq<Echo>)

  const DefaultNamespace: string := "PROVOWARE"

  /** The message of the error a log call throws for a non-string message. */
  const BadMessageError: string := NotAStringMessage("message")

  function LevelTag(level: Level): string {
    match level
    case Info => "INFO"
    case Warn => "WARN"
    case Error => "ERROR"
    case Debug => "DEBUG"
  }

  /** Debug entries go to `console.log`; the others to the method named after the level. */
  function ChannelOf(level: Level): Channel {
    match level
    case Info => ConsoleInfo
    case Warn => ConsoleWarn
    case Error => ConsoleError
    case Debug => ConsoleLog
  }

  /** `[namespace] timestamp LEVEL: message`. */
  function EchoLine(namespace: string, e: Entry): string {
    "[" + namespace + "] " + e.timestamp + " " + LevelTag(e.level) + ": " + e.message
  }

  /** Whether an entry of this level reaches the console: always, except debug
      entries while the debug flag is off. */
  predicate Echoed(debug: bool, level: Level) {
    level != Debug || debug
  }

  /** `createLogger(options)`. A missing options argument counts as `{}`; reading
      `options.debug` from null throws. The flag is the truthiness of
      `options.debug` (the boolean check after `Boolean(...)` cannot fail), and the
      namespace is `options.namespace` when that is a string, `PROVOWARE` otherwise. */
  function CreateLogger(options: JsValue): (r: Completion<Logger>)
    ensures r.Threw? <==> options.JsNull?
    ensures r.Returned? ==> r.value.entries == [] && r.value.echoes == []
    ensures r.Returned? ==> r.value.debug == Truthy(Property(options, "debug"))
    ensures r.Returned? ==>
              r.value.namespace == (if Property(options, "namespace").JsString?
                                    then Property(options, "namespace").s else DefaultNamespace)
  {
    var opts := if options.JsUndefined? then JsObject(map[]) else options;
    match Get(opts, "debug")
    case Threw(e) => Threw(e)
    case Returned(debugOption) =>
      var debugResult := EnsureBoolean(JsBool(Truthy(debugOption)), "debug");
      var namespaceResult := EnsureString(Coalesce(Property(opts, "namespace"), JsString(DefaultNamespace)), "namespace");
      Returned(Logger(
        if debugResult.success then debugResult.payload.value else false,
        if namespaceResult.success then namespaceResult.payload.value else DefaultNamespace,
        [], []))
  }

  /** The inner `log(level, message, meta)`. A non-string message throws before
      anything is recorded. Otherwise exactly one entry is appended (with `{}` for
      an undefined meta), earlier entries, the flag and the namespace stay as they
      were, and the entry is echoed exactly when `Echoed` says so. */
  function Log(l: Logger, level: Level, message: JsValue, meta: JsValue, timestamp: string)
    : (r: Completion<(Logger, Outcome<Entry>)>)
    ensures r.Threw? <==> !message.JsString?
    ensures r.Threw? ==> r.error == BadMessageError
    ensures r.Returned? ==>
              var (next, out) := r.value;
              var e := Entry(level, message.s, timestamp, if meta.JsUndefined? then JsObject(map[]) else meta);
              && next.entries == l.entries + [e]
              && next.debug == l.debug && next.namespace == l.namespace
              && (Echoed(l.debug, level) ==> next.echoes == l.echoes + [Echo(ChannelOf(level), EchoLine(l.namespace, e), e.meta)])
              && (!Echoed(l.debug, level) ==> next.echoes == l.echoes)
              && out == Outcome(true, "Log gespeichert", Some(e))
  {
    var validated := EnsureString(message, "message");
    if !validated.success then Threw(validated.message)
    else
      var m := if meta.JsUndefined? then JsObject(map[]) else meta;
      var entry := Entry(level, validated.payload.value, timestamp, m);
      var echoes := if level != Debug || l.debug
                    then l.echoes + [Echo(ChannelOf(level), EchoLine(l.namespace, entry), m)]
                    else l.echoes;
      Returned((l.(entries := l.entries + [entry], echoes := echoes),
                Outcome(true, "Log gespeichert", Some(entry))))
  }

  /** `logger.info`: recorded and always echoed on `console.info`. */
  function LogInfo(l: Logger, message: JsValue, meta: JsValue, timestamp: string)
    : (r: Completion<(Logger, Outcome<Entry>)>)
    ensures r.Returned? ==> |r.value.0.entries| == |l.entries| + 1 && r.value.0.entries[|l.entries|].level == Info
    ensures r.Returned? ==> |r.value.0.echoes| == |l.echoes| + 1 && r.value.0.echoes[|l.echoes|].channel == ConsoleInfo
  {
    Log(l, Info, message, meta, timestamp)
  }

  /** `logger.warn`: recorded and always echoed on `console.warn`. */
  function LogWarn(l: Logger, message: JsValue, meta: JsValue, timestamp: string)
    : (r: Completion<(Logger, Outcome<Entry>)>)
    ensures r.Returned? ==> |r.value.0.entries| == |l.entries| + 1 && r.value.0.entries[|l.entries|].level == Warn
    ensures r.Returned? ==> |r.value.0.echoes| == |l.echoes| + 1 && r.value.0.echoes[|l.echoes|].channel == ConsoleWarn
  {
    Log(l, Warn, message, meta, timestamp)
  }

  /** `logger.error`: recorded and always echoed on `console.error`. */
  function LogError(l: Logger, message: JsValue, meta: JsValue, timestamp: string)
    : (r: Completion<(Logger, Outcome<Entry>)>)
    ensures r.Returned? ==> |r.value.0.entries| == |l.entries| + 1 && r.value.0.entries[|l.entries|].level == Error
    ensures r.Returned? ==> |r.value.0.echoes| == |l.echoes| + 1 && r.value.0.echoes[|l.echoes|].channel == ConsoleError
  {
    Log(l, Error, message, meta, timestamp)
  }

  /** `logger.debug`: always recorded, echoed on `console.log` only while the flag is on. */
  function LogDebug(l: Logger, message: JsValue, meta: JsValue, timestamp: string)
    : (r: Completion<(Logger, Outcome<Entry>)>)
    ensures r.Returned? ==> |r.value.0.entries| == |l.entries| + 1 && r.value.0.entries[|l.entries|].level == Debug
    ensures r.Returned? ==> (|r.value.0.echoes| == |l.echoes| + 1 <==> l.debug)
    ensures r.Returned? && l.debug ==> r.value.0.echoes[|l.echoes|].channel == ConsoleLog
  {
    Log(l, Debug, message, meta, timestamp)
  }

  /** `enableDebug(value)`: the flag becomes `value` when it is a boolean and is left
      alone otherwise; the boolean check's outcome is returned as it is. Nothing
      else changes. */
  function EnableDebug(l: Logger, value: JsValue): (r: (Logger, Outcome<bool>))
    ensures r.1 == EnsureBoolean(value, "debug")
    ensures r.0.debug == (if value.JsBool? then value.b else l.debug)
    ensures r.0 == l.(debug := r.0.debug)
  {
    var result := EnsureBoolean(value, "debug");
    if result.success then (l.(debug := result.payload.value), result) else (l, result)
  }

  /** `exportLogs()`: succeeds with the entries recorded so far, oldest first. */
  function ExportLogs(l: Logger): (r: Outcome<seq<Entry>>)
    ensures r.success && r.WellFormed()
    ensures r.payload.Some? && |r.payload.value| == |l.entries|
    ensures forall i :: 0 <= i < |l.entries| ==> r.payload.value[i] == l.entries[i]
  {
    Outcome(true, "Logs exportiert", Some(l.entries))
  }

  /** One log call with a string message, as the callers inside the repository make them. */
  datatype Call = Call(level: Level, message: string, meta: JsValue)

  /** The entry a call records at the given time. */
  function EntryOf(c: Call, timestamp: string): Entry {
    Entry(c.level, c.message, timestamp, if c.meta.JsUndefined? then JsObject(map[]) else c.meta)
  }

  /** The state after a log call with a string message: one entry more, echoed as
      `Echoed` says, flag and namespace kept. */
  function Record(l: Logger, c: Call, timestamp: string): (r: Logger)
    ensures r.entries == l.entries + [EntryOf(c, timestamp)]
    ensures r.debug == l.debug && r.namespace == l.namespace
  {
    var e := EntryOf(c, timestamp);
    l.(entries := l.entries + [e],
       echoes := if Echoed(l.debug, c.level)
                 then l.echoes + [Echo(ChannelOf(c.level), EchoLine(l.namespace, e), e.meta)]
                 else l.echoes)
  }

  /** A log call with a string message never throws, and `Record` is its next state. */
  lemma RecordIsLog(l: Logger, c: Call, timestamp: string)
    ensures Log(l, c.level, JsString(c.message), c.meta, timestamp)
         == Returned((Record(l, c, timestamp), Outcome(true, "Log gespeichert", Some(EntryOf(c, timestamp)))))
  {
  }

  /** The state after a series of log calls made at the same instant. */
  function RecordAll(l: Logger, calls: seq<Call>, timestamp: string): Logger
    decreases |calls|
  {
    if |calls| == 0 then l else RecordAll(Record(l, calls[0], timestamp), calls[1..], timestamp)
  }

  /** Logging one series of calls and then another is logging their concatenation. */
  lemma {:induction false} RecordAllAppend(l: Logger, a: seq<Call>, b: seq<Call>, timestamp: string)
    ensures RecordAll(l, a + b, timestamp) == RecordAll(RecordAll(l, a, timestamp), b, timestamp)
    decreases |a|
  {
    if |a| == 0 {
      assert a + b == b;
    } else {
      assert (a + b)[1..] == a[1..] + b;
      RecordAllAppend(Record(l, a[0], timestamp), a[1..], b, timestamp);
    }
  }

  /** The entries a series of calls records. */
  function EntriesOf(calls: seq<Call>, timestamp: string): (es: seq<Entry>)
    ensures |es| == |calls|
    ensures forall i :: 0 <= i < |calls| ==> es[i] == EntryOf(calls[i], timestamp)
  {
    seq(|calls|, i requires 0 <= i < |calls| => EntryOf(calls[i], timestamp))
  }

  /** The echoes a series of calls writes while the flag stays at `debug`. */
  function EchoesOf(namespace: string, debug: bool, calls: seq<Call>, timestamp: string): seq<Echo>
    decreases |calls|
  {
    if |calls| == 0 then []
    else
      var e := EntryOf(calls[0], timestamp);
      (if Echoed(debug, calls[0].level) then [Echo(ChannelOf(calls[0].level), EchoLine(namespace, e), e.meta)] else [])
      + EchoesOf(namespace, debug, calls[1..], timestamp)
  }

  /** A series of log calls appends one entry per call, in call order, and keeps
      the flag and the namespace. */
  lemma {:induction false} EntriesAfterCalls(l: Logger, calls: seq<Call>, timestamp: string)
    ensures RecordAll(l, calls, timestamp).entries == l.entries + EntriesOf(calls, timestamp)
    ensures RecordAll(l, calls, timestamp).debug == l.debug
    ensures RecordAll(l, calls, timestamp).namespace == l.namespace
    decreases |calls|
  {
    if |calls| > 0 {
      EntriesAfterCalls(Record(l, calls[0], timestamp), calls[1..], timestamp);
      EntriesOfFirst(calls, timestamp);
      ConcatAssociative(l.entries, [EntryOf(calls[0], timestamp)], EntriesOf(calls[1..], timestamp));
    } else {
      assert l.entries + EntriesOf(calls, timestamp) == l.entries;
    }
  }

  lemma ConcatAssociative<T>(a: seq<T>, b: seq<T>, c: seq<T>)
    ensures (a + b) + c == a + (b + c)
  {
  }

  lemma EntriesOfFirst(calls: seq<Call>, timestamp: string)
    requires |calls| > 0
    ensures EntriesOf(calls, timestamp) == [EntryOf(calls[0], timestamp)] + EntriesOf(calls[1..], timestamp)
  {
  }

  /** A series of log calls writes exactly the echoes of the calls `Echoed` lets through. */
  lemma {:induction false} EchoesAfterCalls(l: Logger, calls: seq<Call>, timestamp: string)
    ensures RecordAll(l, calls, timestamp).echoes == l.echoes + EchoesOf(l.namespace, l.debug, calls, timestamp)
    decreases |calls|
  {
    if |calls| > 0 {
      var first := Record(l, calls[0], timestamp);
      EchoesAfterCalls(first, calls[1..], timestamp);
      ConcatAssociative(l.echoes, first.echoes[|l.echoes|..], EchoesOf(l.namespace, l.debug, calls[1..], timestamp));
    } else {
      assert l.echoes + EchoesOf(l.namespace, l.debug, calls, timestamp) == l.echoes;
    }
  }

  /** The log is append-only: after any series of log calls, the export is the
      earlier export followed by one entry per call, in call order. */
  lemma ExportAfterCalls(l: Logger, calls: seq<Call>, timestamp: string)
    ensures ExportLogs(RecordAll(l, calls, timestamp)).payload
         == Some(ExportLogs(l).payload.value + EntriesOf(calls, timestamp))
  {
    EntriesAfterCalls(l, calls, timestamp);
  }

  /** Only info, warn and error calls are visible while the debug flag is off, and
      every call is visible while it is on. */
  lemma {:induction false} EchoCount(namespace: string, debug: bool, calls: seq<Call>, timestamp: string)
    ensures |EchoesOf(namespace, debug, calls, timestamp)| == |calls| - (if debug then 0 else CountDebug(calls))
    decreases |calls|
  {
    if |calls| > 0 {
      EchoCount(namespace, debug, calls[1..], timestamp);
    }
  }

  function CountDebug(calls: seq<Call>): nat
    decreases |calls|
  {
    if |calls| == 0 then 0 else (if calls[0].level == Debug then 1 else 0) + CountDebug(calls[1..])
  }
}

=== FILE: path.dfy ===
/** The parts of Node's `path` module the development server relies on, with the
    POSIX rules: `extname`, and `join` with the normalisation it applies. */
module PosixPath {
  import opened Text
  import opened Js

  // ---------------------------------------------------------------------------
  // path.extname

  /** The path without its trailing slashes. */
  function StripTrailingSlashes(s: string): (r: string)
    ensures |r| <= |s| && r == s[..|r|]
    ensures forall k :: |r| <= k < |s| ==> s[k] == '/'
    ensures r == [] || r[|r| - 1] != '/'
    decreases |s|
  {
    if |s| > 0 && s[|s| - 1] == '/' then StripTrailingSlashes(s[..|s| - 1]) else s
  }

  /** The text after the last '/', or all of it when there is none. */
  function LastSegment(s: string): (r: string)
    ensures |r| <= |s| && forall k :: 0 <= k < |r| ==> r[k] == s[|s| - |r| + k]
    ensures '/' !in r
    ensures |r| < |s| ==> s[|s| - |r| - 1] == '/'
    ensures EndsWith(s, r)
  {
    match LastIndexOf(s, '/')
    case None => s
    case Some(i) => s[i + 1..]
  }

  /** The index of the last occurrence of `c` in `s`. */
  function LastIndexOf(s: string, c: char): (r: Option<nat>)
    ensures r.None? <==> c !in s
    ensures r.Some? ==> r.value < |s| && s[r.value] == c && c !in s[r.value + 1..]
    decreases |s|
  {
    if |s| == 0 then None
    else if s[|s| - 1] == c then Some(|s| - 1)
    else
      var r := LastIndexOf(s[..|s| - 1], c);
      assert s == s[..|s| - 1] + [s[|s| - 1]];
      assert r.Some? ==> s[r.value + 1..] == s[..|s| - 1][r.value + 1..] + [s[|s| - 1]];
      r
  }

  /** The extension of a base name: its text from its last '.', or "" when it has
      no '.', its last '.' is its first character, or it is "..". */
  function BaseExtension(base: string): (e: string)
    ensures e == [] || (e[0] == '.' && '.' !in e[1..])
    ensures EndsWith(base, e)
  {
    match LastIndexOf(base, '.')
    case None => ""
    case Some(d) => if d == 0 || base == ".." then "" else base[d..]
  }

  /** `path.extname(p)`: "" or a dot-led, slash-free suffix of the path once its
      trailing slashes are dropped. */
  function Extname(path: string): (e: string)
    ensures e == [] || (e[0] == '.' && '.' !in e[1..] && '/' !in e)
    ensures EndsWith(StripTrailingSlashes(path), e)
  {
    ExtensionOfSegment(StripTrailingSlashes(path));
    BaseExtension(LastSegment(StripTrailingSlashes(path)))
  }

  /** The extension of the last segment is a slash-free suffix of the text. */
  lemma ExtensionOfSegment(s: string)
    ensures var e := BaseExtension(LastSegment(s)); EndsWith(s, e) && '/' !in e
  {
    var base := LastSegment(s);
    var e := BaseExtension(base);
    SuffixOfSegment(s, base, e);
  }

  /** A suffix of a slash-free last segment is a slash-free suffix of the whole text. */
  lemma SuffixOfSegment(s: string, base: string, e: string)
    requires EndsWith(s, base)
    requires '/' !in base
    requires EndsWith(base, e)
    ensures EndsWith(s, e) && '/' !in e
  {
    forall k | 0 <= k < |e|
      ensures e[k] == s[|s| - |e| + k] && e[k] != '/'
    {
      assert e[k] == base[|base| - |e| + k];
      assert base[|base| - |e| + k] == s[|s| - |e| + k];
    }
    assert s[|s| - |e|..] == e;
  }

  /** `e` is a '.' followed by a non-empty, dot-free text. */
  predicate ExtensionShape(e: string) {
    |e| >= 2 && e[0] == '.' && '.' !in e[1..]
  }

  /** For an extension `.x` with `x` non-empty and free of dots, a name ends in
      `.x` exactly when its extension is `.x` or the name is `.x` itself. */
  lemma EndsWithExtension(name: string, e: string)
    requires ExtensionShape(e)
    ensures EndsWith(name, e) <==> BaseExtension(name) == e || name == e
  {
    if EndsWith(name, e) && name != e {
      var d := |name| - |e|;
      assert name[d..] == e;
      assert name[d] == '.';
      assert name[d + 1..] == e[1..];
      var r := LastIndexOf(name, '.');
      assert name[|name| - 1] == e[1..][|e| - 2];
    }
  }

  /** The edges of the extension rule: ".." and a dot-free name have none, and
      "..e" has ".e". */
  lemma BaseExtensionEdges()
    ensures BaseExtension("..") == ""
    ensures BaseExtension("a") == ""
    ensures BaseExtension("..e") == ".e"
  {
    assert LastIndexOf("..e", '.') == Some(1);
  }

  lemma LastSegmentAfter(x: string, y: string)
    requires x == [] || x[|x| - 1] == '/'
    requires '/' !in y
    ensures LastSegment(x + y) == y
  {
    TailAfterSlash(x, y, LastSegment(x + y));
  }

  /** A slash-free tail of `x + y` that is preceded by '/' (or is all of it) is `y`,
      when `x` is empty or ends in '/' and `y` holds no '/'. */
  lemma TailAfterSlash(x: string, y: string, r: string)
    requires x == [] || x[|x| - 1] == '/'
    requires '/' !in y
    requires |r| <= |x + y| && forall k :: 0 <= k < |r| ==> r[k] == (x + y)[|x + y| - |r| + k]
    requires '/' !in r
    requires |r| < |x + y| ==> (x + y)[|x + y| - |r| - 1] == '/'
    ensures r == y
  {
    var s := x + y;
    assert forall j :: |x| <= j < |s| ==> s[j] in y;
    assert forall i :: |s| - |r| <= i < |s| ==> s[i] in r by {
      forall i | |s| - |r| <= i < |s|
        ensures s[i] in r
      {
        assert r[i - (|s| - |r|)] == s[i];
      }
    }
    assert |x| > 0 ==> s[|x| - 1] == '/';
    assert |r| == |y|;
    assert forall k :: 0 <= k < |y| ==> r[k] == s[|x| + k] == y[k];
  }

  /** A file named `name.e` in any directory has the extension `.e`, provided `e`
      holds no dot and the name before it is a real one. */
  lemma ExtnameOfFile(dir: string, name: string, e: string)
    requires dir == [] || dir[|dir| - 1] == '/'
    requires |name| > 0 && name != "." && '/' !in name
    requires '.' !in e && '/' !in e
    ensures Extname(dir + name + "." + e) == "." + e
  {
    var base := name + "." + e;
    assert dir + name + "." + e == dir + base;
    BaseOfPath(dir, base);
    ExtensionOfName(name, e);
  }

  /** The extension of the base name `name.e`. */
  lemma ExtensionOfName(name: string, e: string)
    requires |name| > 0 && name != "."
    requires '.' !in e
    ensures BaseExtension(name + "." + e) == "." + e
  {
    var base := name + "." + e;
    LastDotAt(name, e);
    assert |name| == 1 ==> name == [name[0]];
    assert base[0] == name[0];
    assert base != "..";
    assert base[|name|..] == "." + e;
  }

  /** The last segment of a file path is the file's name. */
  lemma BaseOfPath(dir: string, base: string)
    requires dir == [] || dir[|dir| - 1] == '/'
    requires |base| > 0 && '/' !in base
    ensures LastSegment(StripTrailingSlashes(dir + base)) == base
  {
    var path := dir + base;
    assert path[|path| - 1] == base[|base| - 1];
    assert StripTrailingSlashes(path) == path;
    LastSegmentAfter(dir, base);
  }

  /** The last '.' of `name.e` is the one before `e` when `e` holds none. */
  lemma LastDotAt(name: string, e: string)
    requires '.' !in e
    ensures LastIndexOf(name + "." + e, '.') == Some(|name|)
  {
    var base := name + "." + e;
    assert base[|name|] == '.';
    var r := LastIndexOf(base, '.');
    assert base[|name| + 1..] == e;
  }

  /** A dot file such as '.env' has no extension. */
  lemma ExtnameOfDotFile(dir: string, e: string)
    requires dir == [] || dir[|dir| - 1] == '/'
    requires '.' !in e && '/' !in e
    ensures Extname(dir + "." + e) == ""
  {
    var base := "." + e;
    assert dir + "." + e == dir + base;
    BaseOfPath(dir, base);
    DotNameExtension(e);
  }

  /** The base name `.e` has no extension. */
  lemma DotNameExtension(e: string)
    requires '.' !in e
    ensures BaseExtension("." + e) == ""
  {
    LastDotAt("", e);
    assert "" + "." + e == "." + e;
  }

  // ---------------------------------------------------------------------------
  // path.join

  /** One segment of `path.normalize` applied to the segments kept so far: "" and "."
      vanish, ".." removes the last kept segment unless there is none or it is a
      "..", in which case the ".." is kept. */
  function Resolve(stack: seq<string>, segment: string): seq<string> {
    if segment == "" || segment == "." then stack
    else if segment == ".." then
      (if |stack| > 0 && stack[|stack| - 1] != ".." then stack[..|stack| - 1] else stack + [".."])
    else stack + [segment]
  }

  predicate CleanSegments(stack: seq<string>) {
    forall i :: 0 <= i < |stack| ==> stack[i] != "" && stack[i] != "." && '/' !in stack[i]
  }

  /** The segments normalisation keeps, folding `Resolve` from left to right. A
      clean list stays clean: no empty or "." segment survives. */
  function ResolveAll(stack: seq<string>, segments: seq<string>): (r: seq<string>)
    requires forall i :: 0 <= i < |segments| ==> '/' !in segments[i]
    ensures CleanSegments(stack) ==> CleanSegments(r)
    decreases |segments|
  {
    if |segments| == 0 then stack else ResolveAll(Resolve(stack, segments[0]), segments[1..])
  }

  /** `path.normalize` on a relative path: the kept segments joined with '/', "."
      when none is left, and a trailing '/' kept. The result stays relative, and
      ends in '/' exactly when the path does. */
  function Normalize(path: string): (r: string)
    requires path == [] || path[0] != '/'
    ensures |r| > 0 && r[0] != '/'
    ensures r[|r| - 1] == '/' <==> path != [] && path[|path| - 1] == '/'
  {
    if path == [] then "."
    else
      var kept := ResolveAll([], Split(path, '/'));
      var body := Join(kept, "/");
      JoinCleanEnds(kept);
      if body == [] then (if path[|path| - 1] == '/' then "./" else ".")
      else if path[|path| - 1] == '/' then body + "/" else body
  }

  /** Clean segments, if any, join to a text that neither starts nor ends with '/'. */
  lemma {:induction false} JoinCleanEnds(parts: seq<string>)
    requires CleanSegments(parts)
    ensures var j := Join(parts, "/");
            |parts| > 0 ==> |j| > 0 && j[0] != '/' && j[|j| - 1] != '/'
    decreases |parts|
  {
    if |parts| > 1 {
      var rest := Join(parts[1..], "/");
      JoinCleanEnds(parts[1..]);
      assert Join(parts, "/") == parts[0] + "/" + rest;
    }
  }

  /** `path.join(root, pathname)` for a relative root: the result stays relative and
      ends in '/' exactly when the last non-empty argument does. */
  function JoinPath(root: string, pathname: string): (r: string)
    requires |root| > 0 && root[0] != '/'
    ensures |r| > 0 && r[0] != '/'
    ensures r[|r| - 1] == '/' <==> if pathname == [] then root[|root| - 1] == '/' else pathname[|pathname| - 1] == '/'
  {
    Normalize(if pathname == [] then root else root + "/" + pathname)
  }

  /** A path whose segments all cancel keeps its trailing '/': 'src' joined with
      '../' is './'. */
  lemma CancelledTrailingSlash()
    ensures JoinPath("src", "../") == "./"
  {
    assert Split("", '/') == [""];
    SplitAfterPiece("..", "", '/');
    assert ".." + "/" + "" == "../";
    SplitAfterPiece("src", "../", '/');
    var path := "src" + "/" + "../";
    assert Split(path, '/') == ["src", "..", ""];
    assert ["src", "..", ""][1..] == ["..", ""];
    assert ["..", ""][1..] == [""];
    assert ResolveAll([], ["src", "..", ""]) == ResolveAll(["src"], ["..", ""]);
    assert ResolveAll(["src"], ["..", ""]) == ResolveAll([], [""]);
    assert ResolveAll([], [""]) == ResolveAll([], []);
    assert path[|path| - 1] == '/';
  }

  lemma {:induction false} ResolveAllKeepsPrefix(stack: seq<string>, segments: seq<string>)
    requires forall i :: 0 <= i < |segments| ==> '/' !in segments[i] && segments[i] != ".."
    ensures |ResolveAll(stack, segments)| >= |stack|
    ensures ResolveAll(stack, segments)[..|stack|] == stack
    decreases |segments|
  {
    if |segments| > 0 {
      var next := Resolve(stack, segments[0]);
      ResolveAllKeepsPrefix(next, segments[1..]);
      assert next[..|stack|] == stack;
    }
  }

  /** A pathname without ".." segments stays inside the root: joined to 'src' it
      gives 'src' itself or a path below 'src/'. */
  lemma JoinWithoutDotDotStaysUnder(pathname: string)
    requires forall i :: 0 <= i < |Split(pathname, '/')| ==> Split(pathname, '/')[i] != ".."
    ensures var p := JoinPath("src", pathname);
            p == "src" || (|p| >= 4 && p[..4] == "src/")
  {
    var joined := if pathname == [] then "src" else "src" + "/" + pathname;
    var rest := if pathname == [] then [] else Split(pathname, '/');
    SplitUnderRoot(pathname);
    KeptUnderRoot(rest);
    JoinUnderRoot(ResolveAll([], Split(joined, '/')));
  }

  /** The segments of 'src/pathname' are 'src' and those of the pathname. */
  lemma SplitUnderRoot(pathname: string)
    ensures Split(if pathname == [] then "src" else "src" + "/" + pathname, '/')
         == ["src"] + (if pathname == [] then [] else Split(pathname, '/'))
  {
    if pathname == [] {
      SplitPiece("src", '/');
    } else {
      SplitAfterPiece("src", pathname, '/');
    }
  }

  /** Without ".." among the later segments, the first segment is never removed. */
  lemma KeptUnderRoot(rest: seq<string>)
    requires forall i :: 0 <= i < |rest| ==> '/' !in rest[i] && rest[i] != ".."
    ensures |ResolveAll([], ["src"] + rest)| >= 1 && ResolveAll([], ["src"] + rest)[0] == "src"
  {
    assert (["src"] + rest)[1..] == rest;
    assert Resolve([], "src") == ["src"];
    ResolveAllKeepsPrefix(["src"], rest);
  }

  /** Segments that start with 'src' join to 'src' or to a path below 'src/'. */
  lemma JoinUnderRoot(kept: seq<string>)
    requires |kept| >= 1 && kept[0] == "src"
    ensures Join(kept, "/") == "src" || (|Join(kept, "/")| >= 4 && Join(kept, "/")[..4] == "src/")
  {
    if |kept| > 1 {
      var tail := Join(kept[1..], "/");
      assert Join(kept, "/") == "src" + "/" + tail;
      assert ("src" + "/" + tail)[..4] == "src/";
    }
  }

  /** A single path segment with no special meaning. */
  predicate PlainSegment(s: string) {
    s != "" && s != "." && s != ".." && '/' !in s
  }
}

=== FILE: selfheal.dfy ===
/** The simulated self-repair routine: it validates the requested scope, then the
    optional notes, and reports the fixed list of repair steps. */
module SelfHeal {
  import opened Js
  import opened Validator
  import opened Logger

  const Scopes: seq<string> := ["global", "module", "database"]

  const Steps: seq<string> := ["Abhängigkeiten prüfen", "Integrität reparieren", "Komponenten neu starten"]

  /** The `{ scope, notes? }` argument; an absent field is undefined. */
  datatype HealRequest = HealRequest(scope: JsValue, notes: JsValue)

  /** The payload of a successful run. */
  datatype HealReport = HealReport(scope: string, steps: seq<string>, message: string)

  function ScopeList(): JsValue {
    JsArray([JsString("global"), JsString("module"), JsString("database")])
  }

  predicate IsScope(v: JsValue) {
    v.JsString? && v.s in Scopes
  }

  lemma ScopeListMembers(v: JsValue)
    ensures v in ScopeList().items <==> IsScope(v)
  {
    assert Scopes == ["global", "module", "database"];
  }

  function ScopeCheck(request: HealRequest): Outcome<string> {
    EnsureOneOf(request.scope, ScopeList(), "Self-Heal Bereich")
  }

  function NotesCheck(request: HealRequest): Outcome<string> {
    EnsureString(request.notes, "Hinweis")
  }

  /** `runSelfHeal(payload)` with the module's logger. An invalid scope is rejected
      with the scope check's failure, whatever the notes; truthy notes that are not
      a string are rejected with the string check's failure; falsy notes are not
      checked. A valid request succeeds through `runSafely` with the scope, the
      three steps and the fixed message. Every run logs exactly one entry. */
  function RunSelfHeal(l: Logger, request: HealRequest, now: string): (r: (Logger, Outcome<HealReport>))
    ensures r.1.WellFormed()
    ensures r.1.success <==> IsScope(request.scope) && (!Truthy(request.notes) || request.notes.JsString?)
    ensures !ScopeCheck(request).success ==> r.1 == Propagate(ScopeCheck(request))
    ensures ScopeCheck(request).success && Truthy(request.notes) && !request.notes.JsString? ==>
              r.1 == Propagate(NotesCheck(request))
    ensures r.1.success ==> && r.1.message == "Selbstheilung erfolgreich"
                            && r.1.payload == Some(HealReport(request.scope.s, Steps, "Alle Probleme automatisch behoben."))
    ensures |r.0.entries| == |l.entries| + 1 && r.0.entries[..|l.entries|] == l.entries
    ensures r.0.entries[|l.entries|].level == (if r.1.success then Info else Warn)
  {
    var scopeResult := ScopeCheck(request);
    ScopeListMembers(request.scope);
    if !scopeResult.success then
      var meta := JsObject(map["scope" := request.scope, "detail" := JsString(scopeResult.message)]);
      (Record(l, Call(Warn, "Ungültiger Bereich", meta), now), Propagate(scopeResult))
    else if Truthy(request.notes) && !NotesCheck(request).success then
      var meta := JsObject(map["detail" := JsString(NotesCheck(request).message)]);
      (Record(l, Call(Warn, "Hinweis nicht gültig", meta), now), Propagate(NotesCheck(request)))
    else
      var scope := scopeResult.payload.value;
      var meta := JsObject(map["scope" := JsString(scope), "steps" := JsArray([JsString(Steps[0]), JsString(Steps[1]), JsString(Steps[2])])]);
      var report := HealReport(scope, Steps, "Alle Probleme automatisch behoben.");
      (Record(l, Call(Info, "Selbstheilung ausgeführt", meta), now), RunSafely(Returned(report), "Selbstheilung"))
  }

  /** The scope is checked before the notes: with an invalid scope the notes make
      no difference at all. */
  lemma ScopeBeforeNotes(l: Logger, scope: JsValue, notes1: JsValue, notes2: JsValue, now: string)
    requires !ScopeCheck(HealRequest(scope, notes1)).success
    ensures RunSelfHeal(l, HealRequest(scope, notes1), now) == RunSelfHeal(l, HealRequest(scope, notes2), now)
  {
  }

  /** The repository's own test: scope 'global' with notes succeeds with three
      steps, and scope 'invalid' fails. */
  lemma RepositoryTest(l: Logger, now: string)
    ensures var r := RunSelfHeal(l, HealRequest(JsString("global"), JsString("Routine-Test")), now).1;
            r.success && |r.payload.value.steps| == 3
    ensures !RunSelfHeal(l, HealRequest(JsString("invalid"), JsUndefined), now).1.success
  {
    assert JsString("global") == JsString(Scopes[0]);
  }
}

=== FILE: start.dfy ===
/** The local development server: it maps a request URL to a file under 'src' or
    the project directory and answers 200 with the file, 404 when no candidate is
    readable, or 500 when reading fails. The file system is an input: `readable`
    answers the `access(…, R_OK)` probe and `read` the `readFile` call. Paths follow
    the POSIX rules of Node's `path` module. */
module Start {
  import opened Text
  import opened Js
  import opened Logger
  import opened PosixPath

  const PlainText: string := "text/plain; charset=utf-8"

  /** The content types the server knows, by extension. */
  const MimeTypes: map<string, string> := map[
    ".html" := "text/html; charset=utf-8",
    ".css" := "text/css; charset=utf-8",
    ".js" := "text/javascript; charset=utf-8",
    ".json" := "application/json; charset=utf-8"
  ]

  /** `mimeTypes[ext] ?? 'text/plain; charset=utf-8'`: a known extension gets its
      table entry, and only an unknown one gets the plain-text fallback. */
  function MimeType(ext: string): (r: string)
    ensures r == PlainText <==> ext !in MimeTypes
    ensures ext in MimeTypes ==> r == MimeTypes[ext]
  {
    if ext in MimeTypes then MimeTypes[ext] else PlainText
  }

  /** A plain name joined to a plain root is simply the two with a '/' between them. */
  lemma JoinPlain(root: string, name: string)
    requires PlainSegment(root) && PlainSegment(name)
    ensures JoinPath(root, name) == root + "/" + name
  {
    SplitTwo(root, name);
    ResolveTwo(root, name);
    assert Join([root, name], "/") == root + "/" + name;
  }

  lemma SplitTwo(a: string, b: string)
    requires '/' !in a && '/' !in b
    ensures Split(a + "/" + b, '/') == [a, b]
  {
    SplitPiece(b, '/');
    SplitAfterPiece(a, b, '/');
  }

  /** A ".." segment leaves the root: joined to any plain root, '../name' is 'name'
      itself, so a request for '/../package.json' reaches 'package.json' next to
      'src' rather than a file inside it. */
  lemma DotDotLeavesRoot(root: string, name: string)
    requires PlainSegment(root) && PlainSegment(name)
    ensures JoinPath(root, "../" + name) == name
  {
    SplitThree(root, name);
    ResolveThree(root, name);
  }

  lemma SplitThree(a: string, b: string)
    requires '/' !in a && '/' !in b
    ensures Split(a + "/" + ("../" + b), '/') == [a, "..", b]
  {
    SplitTwo("..", b);
    assert "../" + b == ".." + "/" + b;
    SplitAfterPiece(a, "../" + b, '/');
  }

  lemma ResolveTwo(a: string, b: string)
    requires PlainSegment(a) && PlainSegment(b)
    ensures ResolveAll([], [a, b]) == [a, b]
  {
    assert Resolve([], a) == [a];
    assert [a, b][1..] == [b];
    assert Resolve([a], b) == [a, b];
    assert ResolveAll([], [a, b]) == ResolveAll([a], [b]);
    assert ResolveAll([a], [b]) == ResolveAll([a, b], []);
  }

  lemma ResolveThree(a: string, b: string)
    requires PlainSegment(a) && PlainSegment(b)
    ensures ResolveAll([], [a, "..", b]) == [b]
  {
    assert Resolve([], a) == [a];
    assert [a, "..", b][1..] == ["..", b];
    assert Resolve([a], "..") == [];
    assert ["..", b][1..] == [b];
    assert Resolve([], b) == [b];
    assert ResolveAll([], [a, "..", b]) == ResolveAll([a], ["..", b]);
    assert ResolveAll([a], ["..", b]) == ResolveAll([], [b]);
    assert ResolveAll([], [b]) == ResolveAll([b], []);
  }

  // ---------------------------------------------------------------------------
  // The request handler

  /** The URL path the handler serves: '/index.html' for '/' and for a missing URL. */
  function RequestPath(url: Option<string>): (p: string)
    ensures url.Some? && url.value != "/" ==> p == url.value
    ensures url.None? || url.value == "/" ==> p == "/index.html"
  {
    match url
    case Some(u) => if u == "/" then "/index.html" else u
    case None => "/index.html"
  }

  /** `urlPath.replace(/^\/+/, '')`. */
  function StripLeadingSlashes(s: string): (r: string)
    ensures |r| <= |s| && forall k :: 0 <= k < |r| ==> r[k] == s[|s| - |r| + k]
    ensures forall k :: 0 <= k < |s| - |r| ==> s[k] == '/'
    ensures r == [] || r[0] != '/'
    decreases |s|
  {
    if |s| > 0 && s[0] == '/' then StripLeadingSlashes(s[1..]) else s
  }

  /** The files tried for a pathname, in order: under 'src', then in the project
      directory. Both stay relative; for a plain name they are 'src/name' and the name. */
  function Candidates(pathname: string): (r: seq<string>)
    ensures |r| == 2
    ensures forall i :: 0 <= i < |r| ==> |r[i]| > 0 && r[i][0] != '/'
    ensures PlainSegment(pathname) ==> r == ["src/" + pathname, pathname]
  {
    if PlainSegment(pathname) then
      JoinPlain("src", pathname);
      JoinDot(pathname);
      assert "src" + "/" + pathname == "src/" + pathname;
      [JoinPath("src", pathname), JoinPath(".", pathname)]
    else
      [JoinPath("src", pathname), JoinPath(".", pathname)]
  }

  /** `resolveFile(pathname)`: the first candidate that is readable, or `None` when
      there is none. */
  function ResolveFile(pathname: string, readable: string -> bool): (r: Option<string>)
    ensures r.None? <==> forall c :: c in Candidates(pathname) ==> !readable(c)
    ensures r.Some? ==> r.value in Candidates(pathname) && readable(r.value)
    ensures readable(Candidates(pathname)[0]) ==> r == Some(Candidates(pathname)[0])
  {
    var candidates := Candidates(pathname);
    if readable(candidates[0]) then Some(candidates[0])
    else if readable(candidates[1]) then Some(candidates[1])
    else None
  }

  datatype Response = Response(status: int, contentType: string, body: string)

  /** The answer once the file is resolved: 404 without a file, 200 with the
      content and the given type when reading succeeds, 500 when it fails; exactly
      one entry is logged. */
  function Serve(l: Logger, urlPath: string, mime: string, file: Option<string>,
                 read: string -> Completion<string>, now: string): (r: (Logger, Response))
    ensures |r.0.entries| == |l.entries| + 1 && r.0.entries[..|l.entries|] == l.entries
    ensures r.1.status == 404 <==> file.None?
    ensures r.1.status == 200 <==> file.Some? && read(file.value).Returned?
    ensures r.1.status == 500 <==> file.Some? && read(file.value).Threw?
    ensures r.1.status == 200 ==> && r.1 == Response(200, mime, read(file.value).value)
                                  && r.0.entries[|l.entries|]
                                     == Entry(Debug, "Datei ausgeliefert", now, JsObject(map["filePath" := JsString(file.value)]))
    ensures r.1.status == 404 ==> && r.1 == Response(404, PlainText, "Datei nicht gefunden.")
                                  && r.0.entries[|l.entries|]
                                     == Entry(Error, "Datei fehlt", now, JsObject(map["urlPath" := JsString(urlPath)]))
    ensures r.1.status == 500 ==> && r.1 == Response(500, PlainText, "Fehler beim Laden der Datei.")
                                  && r.0.entries[|l.entries|]
                                     == Entry(Error, "Lesefehler", now, JsObject(map["filePath" := JsString(file.value),
                                                                                     "message" := JsString(read(file.value).error)]))
  {
    match file
    case None =>
      (Record(l, Call(Error, "Datei fehlt", JsObject(map["urlPath" := JsString(urlPath)])), now),
       Response(404, PlainText, "Datei nicht gefunden."))
    case Some(filePath) =>
      match read(filePath)
      case Returned(data) =>
        (Record(l, Call(Debug, "Datei ausgeliefert", JsObject(map["filePath" := JsString(filePath)])), now),
         Response(200, mime, data))
      case Threw(e) =>
        (Record(l, Call(Error, "Lesefehler", JsObject(map["filePath" := JsString(filePath), "message" := JsString(e)])), now),
         Response(500, PlainText, "Fehler beim Laden der Datei."))
  }

  /** The request handler, given the request URL: the file it looks for is the URL
      path without its leading slashes, and the type is chosen by the URL path's
      extension. */
  function Handle(l: Logger, url: Option<string>, readable: string -> bool,
                  read: string -> Completion<string>, now: string): (r: (Logger, Response))
    ensures var file := ResolveFile(StripLeadingSlashes(RequestPath(url)), readable);
            && (r.1.status == 404 <==> file.None?)
            && (r.1.status == 200 <==> file.Some? && read(file.value).Returned?)
            && (r.1.status == 500 <==> file.Some? && read(file.value).Threw?)
            && (r.1.status == 200 ==> r.1 == Response(200, MimeType(Extname(RequestPath(url))), read(file.value).value))
            && (r.1.status == 404 ==> r.1 == Response(404, PlainText, "Datei nicht gefunden."))
            && (r.1.status == 500 ==> r.1 == Response(500, PlainText, "Fehler beim Laden der Datei."))
    ensures |r.0.entries| == |l.entries| + 1 && r.0.entries[..|l.entries|] == l.entries
    ensures var file := ResolveFile(StripLeadingSlashes(RequestPath(url)), readable);
            && (r.1.status == 200 ==> r.0.entries[|l.entries|]
                                      == Entry(Debug, "Datei ausgeliefert", now, JsObject(map["filePath" := JsString(file.value)])))
            && (r.1.status == 404 ==> r.0.entries[|l.entries|]
                                      == Entry(Error, "Datei fehlt", now, JsObject(map["urlPath" := JsString(RequestPath(url))])))
            && (r.1.status == 500 ==> r.0.entries[|l.entries|]
                                      == Entry(Error, "Lesefehler", now, JsObject(map["filePath" := JsString(file.value),
                                                                                      "message" := JsString(read(file.value).error)])))
  {
    var urlPath := RequestPath(url);
    Serve(l, urlPath, MimeType(Extname(urlPath)), ResolveFile(StripLeadingSlashes(urlPath), readable), read, now)
  }

  /** A plain file name is looked up in 'src' first: when 'src/name' is readable it
      is the file served, and otherwise 'name' in the project directory is, if
      readable. */
  lemma ResolvesSourceFirst(name: string, readable: string -> bool)
    requires PlainSegment(name)
    ensures readable("src/" + name) ==> ResolveFile(name, readable) == Some("src/" + name)
    ensures !readable("src/" + name) && readable(name) ==> ResolveFile(name, readable) == Some(name)
    ensures !readable("src/" + name) && !readable(name) ==> ResolveFile(name, readable).None?
  {
    JoinPlain("src", name);
    assert "src" + "/" + name == "src/" + name;
    JoinDot(name);
  }

  /** The project directory adds nothing to a plain name: './name' is 'name'. */
  lemma JoinDot(name: string)
    requires PlainSegment(name)
    ensures JoinPath(".", name) == name
  {
    SplitTwo(".", name);
    ResolveDot(name);
  }

  lemma ResolveDot(b: string)
    requires PlainSegment(b)
    ensures ResolveAll([], [".", b]) == [b]
  {
    assert [".", b][1..] == [b];
    assert ResolveAll([], [".", b]) == ResolveAll([], [b]);
    assert ResolveAll([], [b]) == ResolveAll([b], []);
  }

  /** The site root is served as '/index.html'. */
  lemma RootIsIndex(l: Logger, readable: string -> bool, read: string -> Completion<string>, now: string)
    ensures Handle(l, Some("/"), readable, read, now) == Handle(l, Some("/index.html"), readable, read, now)
    ensures Handle(l, None, readable, read, now) == Handle(l, Some("/index.html"), readable, read, now)
  {
  }
}

=== FILE: text.dfy ===
/** String operations with the meaning JavaScript gives them: white space as the
    regular-expression class `\s` and `String.prototype.trim` see it, `split` on one
    character, `Array.prototype.join`, `includes`, and lower-casing of ASCII letters. */
module Text {

  /** The WhiteSpace and LineTerminator code points of ECMAScript (sections 12.2 and
      12.3 of ECMA-262), the set that both `\s` and `trim` use. */
  predicate IsSpace(c: char) {
    || c == ' ' || c == '\t' || c == '\n' || c == '\U{000B}' || c == '\U{000C}' || c == '\r'
    || c == '\U{00A0}' || c == '\U{1680}' || ('\U{2000}' <= c <= '\U{200A}')
    || c == '\U{2028}' || c == '\U{2029}' || c == '\U{202F}' || c == '\U{205F}'
    || c == '\U{3000}' || c == '\U{FEFF}'
  }

  /** Drops the white space at the front: the result is a suffix of `s`, everything
      dropped is white space, and the result does not start with white space. */
  function TrimStart(s: string): (r: string)
    ensures |r| <= |s| && r == s[|s| - |r|..]
    ensures forall k :: 0 <= k < |s| - |r| ==> IsSpace(s[k])
    ensures r == [] || !IsSpace(r[0])
    decreases |s|
  {
    if |s| > 0 && IsSpace(s[0]) then TrimStart(s[1..]) else s
  }

  /** Drops the white space at the end: the mirror image of `TrimStart`. */
  function TrimEnd(s: string): (r: string)
    ensures |r| <= |s| && r == s[..|r|]
    ensures forall k :: |r| <= k < |s| ==> IsSpace(s[k])
    ensures r == [] || !IsSpace(r[|r| - 1])
    decreases |s|
  {
    if |s| > 0 && IsSpace(s[|s| - 1]) then TrimEnd(s[..|s| - 1]) else s
  }

  /** `r` is the slice of `s` starting at `i`, and only white space lies around it. */
  ghost predicate TrimmedAt(r: string, s: string, i: int) {
    && 0 <= i && i + |r| <= |s| && r == s[i..i + |r|]
    && (forall k :: 0 <= k < i ==> IsSpace(s[k]))
    && (forall k :: i + |r| <= k < |s| ==> IsSpace(s[k]))
  }

  /** `r` is `s` with a run of white space removed at each end. */
  ghost predicate TrimmedFrom(r: string, s: string) {
    exists i :: TrimmedAt(r, s, i)
  }

  /** `String.prototype.trim`: the longest slice of `s` that neither starts nor ends
      with white space, obtained by removing only white space. */
  function Trim(s: string): (r: string)
    ensures TrimmedFrom(r, s)
    ensures r == [] || (!IsSpace(r[0]) && !IsSpace(r[|r| - 1]))
  {
    var front := TrimStart(s);
    var r := TrimEnd(front);
    assert r == s[|s| - |front|..][..|r|] == s[|s| - |front|..|s| - |front| + |r|];
    assert TrimmedAt(r, s, |s| - |front|);
    r
  }

  /** Trimming twice is trimming once. */
  lemma TrimIdempotent(s: string)
    ensures Trim(Trim(s)) == Trim(s)
  {
    var t := Trim(s);
    if t != [] {
      assert TrimStart(t) == t;
      assert TrimEnd(t) == t;
    }
  }

  /** `s.split(d)` for a one-character separator `d`: the pieces between the
      separators, in order; `""` splits into `[""]`. */
  function Split(s: string, d: char): (parts: seq<string>)
    ensures |parts| >= 1
    ensures forall i :: 0 <= i < |parts| ==> d !in parts[i]
    decreases |s|
  {
    if |s| == 0 then [""]
    else
      var rest := Split(s[1..], d);
      if s[0] == d then [""] + rest
      else [[s[0]] + rest[0]] + rest[1..]
  }

  /** `parts.join(sep)`. */
  function Join(parts: seq<string>, sep: string): string
    decreases |parts|
  {
    if |parts| == 0 then ""
    else if |parts| == 1 then parts[0]
    else parts[0] + sep + Join(parts[1..], sep)
  }

  /** Joining the pieces of a split with the separator gives back the text. */
  lemma {:induction false} JoinSplit(s: string, d: char)
    ensures Join(Split(s, d), [d]) == s
    decreases |s|
  {
    if |s| > 0 {
      var rest := Split(s[1..], d);
      JoinSplit(s[1..], d);
      assert s == [s[0]] + s[1..];
      if s[0] != d {
        if |rest| > 1 {
          assert Join(rest, [d]) == rest[0] + [d] + Join(rest[1..], [d]);
        }
      }
    }
  }

  /** Splitting a text free of the separator, followed by a separator and more text. */
  lemma {:induction false} SplitAfterPiece(p: string, t: string, d: char)
    requires d !in p
    ensures Split(p + [d] + t, d) == [p] + Split(t, d)
    decreases |p|
  {
    if |p| > 0 {
      assert (p + [d] + t)[1..] == p[1..] + [d] + t;
      SplitAfterPiece(p[1..], t, d);
      assert [p[0]] + p[1..] == p;
    } else {
      assert p + [d] + t == [d] + t;
    }
  }

  /** A text free of the separator splits into itself. */
  lemma {:induction false} SplitPiece(p: string, d: char)
    requires d !in p
    ensures Split(p, d) == [p]
    decreases |p|
  {
    if |p| > 0 {
      SplitPiece(p[1..], d);
      assert [p[0]] + p[1..] == p;
    }
  }

  /** Splitting a join gives back the pieces, provided none contains the separator. */
  lemma {:induction false} SplitJoin(parts: seq<string>, d: char)
    requires |parts| >= 1
    requires forall i :: 0 <= i < |parts| ==> d !in parts[i]
    ensures Split(Join(parts, [d]), d) == parts
    decreases |parts|
  {
    if |parts| == 1 {
      SplitPiece(parts[0], d);
    } else {
      SplitJoin(parts[1..], d);
      SplitAfterPiece(parts[0], Join(parts[1..], [d]), d);
      assert [parts[0]] + parts[1..] == parts;
    }
  }

  /** `pattern` occurs in `text` at index `i`. */
  ghost predicate OccursAt(text: string, pattern: string, i: int) {
    0 <= i && i + |pattern| <= |text| && text[i..i + |pattern|] == pattern
  }

  /** `text.includes(pattern)`, computed by trying each start position in turn. */
  predicate Contains(text: string, pattern: string)
    ensures pattern == [] ==> Contains(text, pattern)
    ensures Contains(text, pattern) ==> |pattern| <= |text|
    decreases |text|
  {
    pattern <= text || (|text| > 0 && Contains(text[1..], pattern))
  }

  /** A position where `Contains` found the pattern. */
  lemma {:induction false} ContainsWitness(text: string, pattern: string) returns (i: nat)
    requires Contains(text, pattern)
    ensures OccursAt(text, pattern, i)
    decreases |text|
  {
    if pattern <= text {
      i := 0;
    } else {
      var j := ContainsWitness(text[1..], pattern);
      assert text[1..][j..j + |pattern|] == text[j + 1..j + 1 + |pattern|];
      i := j + 1;
    }
  }

  /** An occurrence at any position is found by `Contains`. */
  lemma {:induction false} OccursAtContains(text: string, pattern: string, i: int)
    requires OccursAt(text, pattern, i)
    ensures Contains(text, pattern)
    decreases i
  {
    if i > 0 {
      assert text[1..][i - 1..i - 1 + |pattern|] == text[i..i + |pattern|];
      OccursAtContains(text[1..], pattern, i - 1);
    }
  }

  /** `Contains` holds exactly when the pattern occurs at some index. */
  lemma ContainsIff(text: string, pattern: string)
    ensures Contains(text, pattern) <==> exists i :: OccursAt(text, pattern, i)
  {
    if Contains(text, pattern) {
      var i := ContainsWitness(text, pattern);
    }
    if i :| OccursAt(text, pattern, i) {
      OccursAtContains(text, pattern, i);
    }
  }

  /** An occurrence in `a` is still an occurrence once text is added on either side. */
  lemma ContainsExtended(a: string, pattern: string, before: string, after: string)
    requires Contains(a, pattern)
    ensures Contains(before + a + after, pattern)
  {
    var i := ContainsWitness(a, pattern);
    var whole := before + a + after;
    assert whole[|before| + i..|before| + i + |pattern|] == a[i..i + |pattern|];
    OccursAtContains(whole, pattern, |before| + i);
  }

  /** Every piece occurs in the join of the pieces. */
  lemma {:induction false} JoinContainsPiece(parts: seq<string>, sep: string, i: nat)
    requires i < |parts|
    ensures Contains(Join(parts, sep), parts[i])
    decreases |parts|
  {
    if |parts| == 1 {
      OccursAtContains(parts[0], parts[0], 0);
    } else if i == 0 {
      var whole := Join(parts, sep);
      assert whole == parts[0] + (sep + Join(parts[1..], sep));
      OccursAtContains(whole, parts[0], 0);
    } else {
      JoinContainsPiece(parts[1..], sep, i - 1);
      ContainsExtended(Join(parts[1..], sep), parts[i], parts[0] + sep, "");
      assert parts[0] + sep + Join(parts[1..], sep) + "" == Join(parts, sep);
    }
  }

  /** Whether `s` ends with `suffix`. */
  predicate EndsWith(s: string, suffix: string) {
    |suffix| <= |s| && s[|s| - |suffix|..] == suffix
  }

  /** Lower-case form of an ASCII letter; every other character is kept. */
  function LowerChar(c: char): char {
    if 'A' <= c <= 'Z' then (c as int + 32) as char else c
  }

  /** Lower-cases the ASCII letters of `s`, character by character. */
  function LowerAscii(s: string): (r: string)
    ensures |r| == |s|
    ensures forall i :: 0 <= i < |s| ==> r[i] == LowerChar(s[i])
  {
    seq(|s|, i requires 0 <= i < |s| => LowerChar(s[i]))
  }

  function DigitChar(d: nat): char
    requires d < 10
  {
    "0123456789"[d]
  }

  /** Decimal text of a natural number, without leading zeros. */
  function NatText(n: nat): string
    decreases n
  {
    if n < 10 then [DigitChar(n)] else NatText(n / 10) + [DigitChar(n % 10)]
  }

  /** Decimal text of an integer, with a leading '-' when negative. */
  function IntText(n: int): string {
    if n < 0 then "-" + NatText(-n) else NatText(n)
  }
}

=== FILE: theme.dfy ===
/** Theme switching: the `data-theme` attribute of the document element is the one
    piece of page state; the theme manager validates a theme name before setting it. */
module ThemeManager {
  import opened Text
  import opened Js
  import opened Validator
  import opened Logger

  const AllowedThemes: seq<string> := ["dark", "light", "high-contrast"]

  function ThemeList(): JsValue {
    JsArray([JsString("dark"), JsString("light"), JsString("high-contrast")])
  }

  predicate IsAllowedTheme(theme: JsValue) {
    theme.JsString? && theme.s in AllowedThemes
  }

  /** The document's `data-theme` attribute (`None` while unset) and the module's logger. */
  datatype Page = Page(dataTheme: Option<string>, logger: Logger)

  /** `applyTheme(theme)`. It succeeds exactly for 'dark', 'light' and
      'high-contrast', then sets the attribute to the theme; otherwise it returns
      the `ensureOneOf` failure as it is and leaves the attribute alone. Each call
      logs one entry. */
  function ApplyTheme(page: Page, theme: JsValue, now: string): (r: (Page, Outcome<string>))
    ensures r.1.WellFormed()
    ensures r.1.success <==> IsAllowedTheme(theme)
    ensures !r.1.success ==> r.1 == EnsureOneOf(theme, ThemeList(), "Theme") && r.0.dataTheme == page.dataTheme
    ensures r.1.success ==> r.0.dataTheme == Some(theme.s) && r.1 == Outcome(true, "Theme aktiviert", Some(theme.s))
    ensures |r.0.logger.entries| == |page.logger.entries| + 1
  {
    var result := EnsureOneOf(theme, ThemeList(), "Theme");
    if !result.success then
      var meta := JsObject(map["theme" := theme, "detail" := JsString(result.message)]);
      (page.(logger := Record(page.logger, Call(Error, "Ungültiges Theme", meta), now)), result)
    else
      var name := result.payload.value;
      var meta := JsObject(map["theme" := JsString(name)]);
      (Page(Some(name), Record(page.logger, Call(Info, "Theme geändert", meta), now)),
       Outcome(true, "Theme aktiviert", Some(name)))
  }

  /** Applying the same theme twice leaves the attribute as applying it once does,
      and the second call reports the same outcome. */
  lemma ApplyThemeIdempotent(page: Page, theme: JsValue, now: string)
    ensures var once := ApplyTheme(page, theme, now);
            var twice := ApplyTheme(once.0, theme, now);
            twice.0.dataTheme == once.0.dataTheme && twice.1 == once.1
  {
  }

  /** `getAllowedThemes()`: always succeeds with the three themes in order. */
  function GetAllowedThemes(): (r: Outcome<seq<string>>)
    ensures r.success && r.message == "Themes bereit"
    ensures r.payload == Some(["dark", "light", "high-contrast"])
    ensures forall t :: t in r.payload.value <==> IsAllowedTheme(JsString(t))
  {
    Outcome(true, "Themes bereit", Some(AllowedThemes))
  }

  /** Every theme `getAllowedThemes` lists is accepted by `applyTheme`. */
  lemma ListedThemesApply(page: Page, i: nat, now: string)
    requires i < 3
    ensures ApplyTheme(page, JsString(GetAllowedThemes().payload.value[i]), now).1.success
  {
  }

  /** The element check of `bindThemeSelect`: `select?.tagName ?? ''` must be a
      string whose lower-case form is 'select'. On success the select shows the
      current theme, 'dark' while none is set. */
  function BindThemeSelect(page: Page, select: JsValue): (r: (Outcome<()>, Option<string>))
    ensures r.0.WellFormed() && r.0.payload.None?
    ensures r.0.success <==> (Property(select, "tagName").JsString?
                              && LowerAscii(Property(select, "tagName").s) == "select")
    ensures r.0.success ==> r.1 == Some(if page.dataTheme.Some? then page.dataTheme.value else "dark")
    ensures !r.0.success ==> r.0.message == "Theme-Auswahl muss ein <select> Element sein." && r.1.None?
  {
    var tag := EnsureString(Coalesce(Property(select, "tagName"), JsString("")), "Theme Select Tag");
    if !tag.success || LowerAscii(tag.payload.value) != "select" then
      (Outcome(false, "Theme-Auswahl muss ein <select> Element sein.", None), None)
    else
      (Outcome(true, "Theme-Auswahl verbunden", None),
       Some(match page.dataTheme case Some(t) => t case None => "dark"))
  }
}

=== FILE: validator.dfy ===
/** The validation helpers every module builds on: each takes an untyped value and
    a context label and returns an `Outcome` instead of throwing. */
module Validator {
  import opened Text
  import opened Js

  /** The uniform `{ success, message, payload? }` record. */
  datatype Outcome<T> = Outcome(success: bool, message: string, payload: Option<T>) {
    /** A failure never carries a payload. */
    predicate WellFormed() {
      !success ==> payload.None?
    }
  }

  /** A failure handed on unchanged to a caller whose payload type differs. */
  function Propagate<T, U>(failure: Outcome<U>): (r: Outcome<T>)
    requires !failure.success
    ensures !r.success && r.message == failure.message && r.payload.None?
  {
    Outcome(false, failure.message, None)
  }

  /** The fixed message for an `allowed` argument that is not an array. */
  const AllowedNotAList: string := "Erlaubte Werte (allowed) müssen eine Liste sein."

  function NotAStringMessage(context: string): string {
    context + " muss ein Text (string) sein."
  }

  /** `ensureString`: succeeds exactly for strings, handing the string back unchanged. */
  function EnsureString(value: JsValue, context: string): (r: Outcome<string>)
    ensures r.WellFormed()
    ensures r.success <==> value.JsString?
    ensures r.success ==> r.payload == Some(value.s) && r.message == context + " ok"
    ensures !r.success ==> r.message == NotAStringMessage(context)
  {
    if value.JsString? then Outcome(true, context + " ok", Some(value.s))
    else Outcome(false, NotAStringMessage(context), None)
  }

  /** The rejection message of `ensureOneOf`, which lists the allowed values. */
  function NotOneOfMessage(context: string, allowed: seq<JsValue>): string {
    context + " muss einer der Werte " + JoinValues(allowed, ", ") + " sein."
  }

  /** `ensureOneOf`: the string check comes first and its failure is passed on
      unchanged; then `allowed` must be an array; then the string must be one of
      its elements, compared with strict equality. */
  function EnsureOneOf(value: JsValue, allowed: JsValue, context: string): (r: Outcome<string>)
    ensures r.WellFormed()
    ensures !value.JsString? ==> r == EnsureString(value, context)
    ensures value.JsString? && !allowed.JsArray? ==> r == Outcome(false, AllowedNotAList, None)
    ensures r.success <==> value.JsString? && allowed.JsArray? && value in allowed.items
    ensures r.success ==> r.payload == Some(value.s) && r.message == context + " erlaubt"
    ensures value.JsString? && allowed.JsArray? && !r.success ==>
              r.message == NotOneOfMessage(context, allowed.items)
  {
    var base := EnsureString(value, context);
    if !base.success then base
    else if !allowed.JsArray? then Outcome(false, AllowedNotAList, None)
    else if value in allowed.items then Outcome(true, context + " erlaubt", base.payload)
    else Outcome(false, NotOneOfMessage(context, allowed.items), None)
  }

  /** A rejection by `ensureOneOf` names every allowed string, so the message alone
      tells the caller what to pass instead. */
  lemma RejectionNamesEveryAllowed(value: JsValue, allowed: seq<JsValue>, context: string, i: nat)
    requires value.JsString? && value !in allowed
    requires i < |allowed| && allowed[i].JsString?
    ensures Contains(EnsureOneOf(value, JsArray(allowed), context).message, allowed[i].s)
  {
    var texts := seq(|allowed|, k requires 0 <= k < |allowed| => ElementText(allowed[k]));
    assert ElementText(allowed[i]) == ToText(allowed[i]) == allowed[i].s;
    assert texts[i] == allowed[i].s;
    JoinContainsPiece(texts, ", ", i);
    ContainsExtended(JoinValues(allowed, ", "), allowed[i].s,
                     context + " muss einer der Werte ", " sein.");
  }

  /** `ensureBoolean`: succeeds exactly for booleans, handing the boolean back unchanged. */
  function EnsureBoolean(value: JsValue, context: string): (r: Outcome<bool>)
    ensures r.WellFormed()
    ensures r.success <==> value.JsBool?
    ensures r.success ==> r.payload == Some(value.b) && r.message == context + " ok"
    ensures !r.success ==> r.message == context + " muss true oder false (boolean) sein."
  {
    if value.JsBool? then Outcome(true, context + " ok", Some(value.b))
    else Outcome(false, context + " muss true oder false (boolean) sein.", None)
  }

  /** `runSafely`: whatever the action does, the caller gets an `Outcome`; a
      returned value becomes the payload, a thrown error becomes a failure that
      quotes the error's message. */
  function RunSafely<T>(action: Completion<T>, context: string): (r: Outcome<T>)
    ensures r.WellFormed()
    ensures r.success <==> action.Returned?
    ensures action.Returned? ==> r == Outcome(true, context + " erfolgreich", Some(action.value))
    ensures action.Threw? ==> r.message == context + " fehlgeschlagen: " + action.error
  {
    match action
    case Returned(v) => Outcome(true, context + " erfolgreich", Some(v))
    case Threw(e) => Outcome(false, context + " fehlgeschlagen: " + e, None)
  }

  /** What a successful validation hands back is the validated value itself:
      validating the payload again succeeds with the same payload. */
  lemma {:induction false} PayloadRevalidates(value: JsValue, allowed: JsValue, context: string)
    ensures var r := EnsureString(value, context);
            r.success ==> EnsureString(JsString(r.payload.value), context) == r
    ensures var r := EnsureOneOf(value, allowed, context);
            r.success ==> EnsureOneOf(JsString(r.payload.value), allowed, context) == r
    ensures var r := EnsureBoolean(value, context);
            r.success ==> EnsureBoolean(JsBool(r.payload.value), context) == r
  {
  }
}
